=== FILE: README.md ===
# Station data acquisition: a Dafny model

This project models the core of the two acquisition scripts of the Tuscan
weather-station pipeline:
- `update_automation/update_temp.py` collects monthly temperature pages (`termo_men`);
- `update_automation/update_dati.py` collects monthly rainfall pages (`pluvio_men`).

The two scripts are one program with four differences in the modelled core. The model keeps one
program and gathers the differences into a `Variants.Variant` record:
- which quoted field holds the reading: `parts[5]` or `parts[7]`;
- what an empty reading field becomes: `None` or `0.0`;
- whether an image response or an error mentioning "500" skips the station;
- whether `IDStazione` is turned back from the index into a column.

The modules follow the program's stages:

- `Text`: Python's `str.split` with a one-character separator, with its
  inverse `JoinWith` and both round trips; the substring test `in`; and
  `str.lower`.
- `Extractor`: `from_html_to_dict` over the entries the record pattern
  matched. Each entry is split on `"`. The date `parts[3]` is the key. The
  variant's field, read by `float`, is the value. A later entry for the same
  date wins, and the first entry that cannot be read raises.
- `Pattern`: the shape of the text the pattern
  `VALUES\[\d+\] = new Array\("\d+","\d+/\d+/\d+","\d+.\d+","\d*.*\d*"\)`
  accepts, and what splitting it yields:
  - the date is always `parts[3]`;
  - `\d` stands for any Unicode decimal digit, of which the model keeps
    only that it is not a double quote, a line break or a Latin letter;
  - the temperature reading `parts[5]` is never empty and never spells NaN,
    so the `None` branch is dead and no temperature cell is missing;
  - the unescaped `.` and the `.*` admit a double quote. A double quote as
    the decimal point shifts the rainfall reading onto the literal `","`.
- `Fetch`: the `while True` loop of `fetch_single_station`. Each attempt is
  classified as return, skip (temperature only) or sleep-and-retry, and
  every sleep lasts `retries * 10` = 10 seconds.
- `Collect`: the collection loop of `fetch_station_data_parallel`. Results
  are stored in the order the workers finish, which is any ordering of the
  submitted stations, so the collected map does not depend on it.
- `Aggregate`: the table-building steps of `main`, in order:
  `drop_duplicates` on `IDStazione` (first line kept), the column-wise join
  with the series, `reset_index` (temperature only), the drop of seven
  catalogue columns with `errors='ignore'`, and `fillna(0)`.
- `Pipeline`: `main` end to end, from the catalogue and the network's
  answers to the finished table. The page reader is a parameter of `main`'s
  model; `Pipeline.ScriptReader` is the scripts' reader, which scans a page
  for the record pattern and runs the extractor over the matches.

The model leaves the parts it cannot see as parameters:
- the network is a function from station id to the finite sequence of
  answers its fetch meets, each an `Attempt`;
- the completion order of the workers;
- `float`, as `string -> Option<Float>`, where `None` is the `ValueError`
  and a `Float` is a finite real, an infinity or NaN; pandas takes NaN for a
  missing value, so a NaN reading becomes a missing cell;
- `re.findall`, as `string -> seq<string>`.

An exception the scripts do not catch is an `Err` result. A fetch that never
returns is a `None` result.

Two behaviours of the code that a reader might not expect:
- The backoff is constant. `wait = retries * 10`, and `retries` is set to 1
  (update_temp.py:22, 40) and never changed, so every wait is 10 seconds
  (`Fetch.FetchSingle`, `Fetch.PersistentFailureNeverEnds`).
- A fetch that never returns blocks the loop over `as_completed`
  (update_temp.py:48), so `main` never finishes. `Collect.FetchAll` and
  `Pipeline.RunMain` give `None` exactly when some station's fetch does not
  return.

## Model

| member | source | states |
|---|---|---|
| Text.SplitOn | update_automation/update_temp.py:15 | `split('"')` yields one more part than there are double quotes, and no part contains one |
| Text.JoinSplitOn | update_automation/update_temp.py:15 | joining the parts of a split with the separator gives the original entry back, so splitting loses no character |
| Text.SplitOnJoin | update_automation/update_temp.py:15 | splitting a join of separator-free parts returns exactly those parts |
| Text.SplitOnAround | update_automation/update_temp.py:15 | splitting `a + sep + b` is splitting `a` followed by splitting `b` |
| Text.Contains | update_automation/update_temp.py:37 | `needle in hay` holds exactly when the needle occurs at some position of the haystack |
| Text.Lower | update_automation/update_temp.py:30 | `lower()` keeps the length, lower-cases each letter and leaves no upper-case ASCII letter |
| Extractor.ReadEntry | update_automation/update_temp.py:15-17 | an entry that can be read is stored under its date field `parts[3]` |
| Extractor.Extract | update_automation/update_temp.py:11-19 | no matched entry gives an empty map and no error; the extraction succeeds exactly when every entry can be read |
| Extractor.ExtractKeys | update_automation/update_temp.py:14-18 | the keys of the series are exactly the date fields of the matched entries |
| Extractor.SeriesSize | update_automation/update_temp.py:14-18 | the map has at most as many dates as there were matched entries |
| Extractor.LaterEntryWins | update_automation/update_dati.py:14-18 | a date holds the cell of the last entry carrying it |
| Extractor.FirstBadEntryRaises | update_automation/update_temp.py:14-17 | the exception raised is the one of the first entry that cannot be read; entries after it do not matter |
| Extractor.EntriesNeverMissing | update_automation/update_temp.py:17-18 | when no readable entry yields a missing marker, no cell of the series is missing |
| Extractor.CellsFromEntries | update_automation/update_temp.py:14-18 | every cell of the series was read from an entry carrying its date |
| Extractor.RainfallMissingOnlyFromNaN | update_automation/update_dati.py:17 | the rainfall series holds a missing marker only for a date whose reading `float` takes for NaN; an empty field becomes 0.0 |
| Extractor.VariantsAgreeOnDates | update_automation/update_dati.py:16 | both extractors key the same entries by the same dates |
| Pattern.MatchNonEmpty | update_automation/update_temp.py:12 | no text the pattern accepts is empty, so `re.findall` finds nothing in an empty page |
| Pattern.MatchFields | update_automation/update_temp.py:12-16 | every text the pattern accepts, double quotes in its wildcards included, splits into at least nine parts, with the station in `parts[1]`, the date in `parts[3]` and a non-empty `parts[5]` |
| Pattern.PlainMatchFields | update_automation/update_temp.py:12-15 | when the wildcards hold no double quote, the split gives exactly the nine pieces of the match |
| Pattern.MatchReadable | update_automation/update_temp.py:12-17 | a matched entry is keyed by its date text, and the only error reading it can raise is the `ValueError` of `float`, never an `IndexError` |
| Pattern.VariantFields | update_automation/update_dati.py:12-17 | temperature reads the 3rd quoted field; rainfall reads the 4th, and an empty 4th field is 0.0 |
| Pattern.QuotePointShiftsFields | update_automation/update_dati.py:12-17 | with a double quote as the decimal point the split has ten parts and `parts[7]` is the separator `","`, not the 4th field |
| Pattern.ReadingNotNan | update_automation/update_temp.py:12-17 | for a `float` that reads NaN only from a spelling of `nan`, the temperature field of a match never reads as NaN |
| Pattern.TemperatureNeverMissing | update_automation/update_temp.py:12-17 | over matched entries the temperature series never holds a missing marker: the `None` branch is unreachable and no reading spells NaN |
| Fetch.OnException | update_automation/update_temp.py:36-42 | an exception ends the loop, with empty content, exactly when the variant skips and its text contains "500"; otherwise the loop sleeps 10 seconds |
| Fetch.Classify | update_automation/update_temp.py:28-42 | only a decoded response returns a non-empty page, and it returns that body; a raised exception, and a non-image response whose body cannot be decoded, both go through the `except` branch (skip on "500" for temperature, else a 10-second retry); without skipping, an attempt ends the loop exactly when it is a decoded response |
| Fetch.FetchSingle | update_automation/update_temp.py:21-42 | the loop returns exactly when some attempt ends it; the returned station is the one asked for; every sleep lasts 10 seconds; there is at most one sleep per attempt |
| Fetch.FetchLoop | update_automation/update_temp.py:23-42 | the step-by-step loop over the attempts returns and sleeps exactly as `FetchSingle` describes |
| Fetch.StopsAtFirstEnding | update_automation/update_temp.py:23-42 | the loop returns the page of the first attempt that ends it, after one 10-second sleep for each earlier attempt |
| Fetch.PersistentFailureNeverEnds | update_automation/update_temp.py:36-42 | under exceptions that are never skipped the loop never returns; it sleeps 10 seconds after each attempt |
| Fetch.TemperatureSkips | update_automation/update_temp.py:29-39 | an image `Content-Type` (in any letter case) or an exception mentioning "500" returns the station with empty content at once, without sleeping |
| Fetch.TemperatureReturnsPage | update_automation/update_temp.py:28-34 | a decoded response that is not an image returns the station with its body at once |
| Fetch.RainfallNeverSkips | update_automation/update_dati.py:24-34 | for rainfall, exactly a decoded response ends the loop, with its body; every exception, a "500" included, is a 10-second sleep and a retry |
| Collect.Collect | update_automation/update_temp.py:45-51 | the collected map's keys are exactly the stations whose fetches finished |
| Collect.CollectAgrees | update_automation/update_temp.py:49-50 | when each station always comes with the same page, the map holds that page for it |
| Collect.Completions | update_automation/update_temp.py:47-49 | one result per finished station, in completion order, each carrying that station's page |
| Collect.AllReturnInAnyOrder | update_automation/update_temp.py:47-48 | every submitted fetch returns exactly when every fetch in any completion order returns |
| Collect.FetchAll | update_automation/update_temp.py:44-51 | the collection ends exactly when every station's fetch returns; its keys are then exactly the submitted ids, each with its own page |
| Collect.CompletionOrderIrrelevant | update_automation/update_dati.py:36-43 | two completion orders of the same stations collect the same map |
| Aggregate.DropDuplicates | update_automation/update_temp.py:56 | deduplication never lengthens the catalogue |
| Aggregate.DropDuplicatesIds | update_automation/update_temp.py:56 | deduplication keeps every id of the catalogue and adds none |
| Aggregate.DropDuplicatesKeepsFirst | update_automation/update_temp.py:56 | every kept line is the first catalogue line with its id |
| Aggregate.DropDuplicatesKeepsOrder | update_automation/update_temp.py:56 | kept lines keep their catalogue order |
| Aggregate.DeduplicatedIdsDistinct | update_automation/update_temp.py:56 | no id appears twice after deduplication |
| Aggregate.DistinctIdsKept | update_automation/update_temp.py:56 | a catalogue without repeated ids comes through deduplication unchanged |
| Aggregate.Join | update_automation/update_temp.py:66-67 | the joined frame has one row per station in catalogue order, the catalogue columns plus one column per reported date, and in each cell the catalogue value or the station's reading, missing when absent |
| Aggregate.ResetIndex | update_automation/update_temp.py:68 | the station id becomes a column, labelled `IDStazione` as the script intends, holding each row's id; every other cell stays |
| Aggregate.JoinedIndexName | update_automation/update_temp.py:66-67 | pandas' rule for the index name of `concat`: with no reported date the empty series frame is dropped and the catalogue's name stays; otherwise a name survives only when both inputs carry it |
| Aggregate.ResetLabel | update_automation/update_temp.py:68 | the label `reset_index` gives the inserted column: the index's name, else `index` or `level_0` |
| Aggregate.ResetLabelAsWritten | update_automation/update_temp.py:66-68 | as written, the restored column is labelled `IDStazione` exactly when no station reports a date; whenever some station reports a date the joined index has no name and the label is `index` |
| Aggregate.ResetLabelWitness | update_automation/update_temp.py:66-68 | one station reporting one date already makes the label `index` |
| Aggregate.ResetLabelCorrected | update_automation/update_temp.py:66-68 | with the series index named `IDStazione` too, the restored column is labelled `IDStazione` whatever the stations report, and holds each row's id |
| Aggregate.DropColumns | update_automation/update_temp.py:69-72 | exactly the columns with the listed labels go, and the other cells keep their values |
| Aggregate.DropAbsentColumns | update_automation/update_dati.py:60-63 | dropping labels no column carries is no error and changes nothing |
| Aggregate.FillMissing | update_automation/update_temp.py:73 | no cell is missing afterwards, and every cell that was present keeps its value |
| Aggregate.Shaped | update_automation/update_temp.py:66-68 | the joined table has one row per deduplicated station in catalogue order, with the station id a column exactly for the variant that resets the index |
| Aggregate.Merge | update_automation/update_temp.py:66-73 | the finished table has one cell per column in every row, no missing cell and none of the seven excluded columns |
| Aggregate.MergeRows | update_automation/update_temp.py:56-67 | the finished table has one row per deduplicated station, in catalogue order |
| Aggregate.MergeColumns | update_automation/update_dati.py:58-63 | the columns are the catalogue columns and the reported dates other than the excluded labels, with the station id a column exactly for the temperature variant |
| Aggregate.MergeCells | update_automation/update_temp.py:66-73 | each cell is the station's catalogue value, its reading for the date or its id, with 0 where that is missing |
| Aggregate.MergeDays | update_automation/update_dati.py:58-64 | when every catalogue station has a series, each date cell is the station's own reading, 0 where it has none |
| Aggregate.FillErasesMissing | update_automation/update_temp.py:73 | series that differ only in missing markers against 0.0 give the same finished table |
| Aggregate.TwoStationExample | update_automation/update_temp.py:66-73 | two stations, one reporting `x` on a day: two rows in catalogue order, the day a column, `x` in the first row and 0 in the second |
| Pipeline.ScriptReader | update_automation/update_temp.py:11-19 | a page with no match reads as an empty series; a page that reads without error is keyed by exactly the date fields of its matches |
| Pipeline.SeriesOf | update_automation/update_temp.py:63 | an error raised while parsing all pages is the error of one of the visited pages |
| Pipeline.FirstBadPageRaises | update_automation/update_temp.py:63 | the comprehension raises the error of the first page, in the order the pages were stored, that cannot be read |
| Pipeline.SeriesOfSucceeds | update_automation/update_temp.py:63 | parsing all pages succeeds exactly when no page raises |
| Pipeline.SeriesOfContents | update_automation/update_temp.py:63 | a successful parse holds one series per stored station, the one extracted from its page |
| Pipeline.SeriesOfOrder | update_automation/update_dati.py:55 | the order in which pages are parsed changes neither whether one raises nor the resulting map |
| Pipeline.IdSeqCovers | update_automation/update_temp.py:56-60 | the deduplicated index handed to the fetcher lists exactly the catalogue's ids |
| Pipeline.StationSeries | update_automation/update_temp.py:55-63 | when the fetch and parse stages end without an exception, there is one series per catalogue id, extracted from that station's own page |
| Pipeline.StationSeriesEnds | update_automation/update_temp.py:56-63 | the fetch and parse stages end exactly when every deduplicated station's fetch returns |
| Pipeline.RunMain | update_automation/update_temp.py:53-73 | `main` ends exactly when every deduplicated station's fetch returns |
| Pipeline.MainTable | update_automation/update_dati.py:45-64 | the finished table has one row per deduplicated station in catalogue order, and each date cell holds the station's reading extracted from its own page, 0 where it has none or it is missing |
| Pipeline.SkippedStationZeros | update_automation/update_temp.py:63-73 | a station whose fetch returned empty content (a skip) has 0 in every date column of the finished table, for a scanner that finds nothing in an empty page |
| Pipeline.MainOrderIrrelevant | update_automation/update_temp.py:53-73 | the order in which the workers finish changes neither whether `main` ends, nor whether it raises, nor the table it builds |

## Left out

- HTTP: `urllib`, the URL template and the User-Agent header are not modelled. Each answer is an `Attempt`: a response with its `Content-Type` and its body, decoded or not, or an exception's text.
- The thread pool: `MAX_WORKERS = 3` and the scheduling of `as_completed` are not modelled. Concurrency appears only as the completion order, which may be any ordering of the submitted stations.
- `time.sleep`, `tqdm` and `print`: these are side effects. Each sleep's length is recorded in `Fetch.Run.waits`, and the rest is dropped.
- The regular-expression engine: `re.findall` is a parameter. The `Pattern` module states the shape of what the pattern accepts, but no scan is modelled.
- `float`: it is a parameter that gives a finite real, an infinity or NaN, or raises. Floating-point rounding is not modelled, and neither is which texts give which value, beyond `Extractor.NanSpelled`: NaN comes only from a spelling of `nan`.
- `read_csv` and `to_csv`: file paths, the `;` separator and UTF-8 encoding are not modelled. Neither is `index=False` in the rainfall script, which leaves `IDStazione` out of the written file. The catalogue is a sequence of `Aggregate.Station` values.
- Column order: columns are a set, so the order of the written columns is not modelled.
- Row order of the join follows the catalogue. `DataFrame.from_dict` leaves out the stations whose series is empty, so the series frame's index holds some of the catalogue's ids, in another order. The unsorted index union of `pd.concat` then keeps the catalogue's order and adds no row.
- Missing or repeated `IDStazione` values (`NaN`) in the catalogue: ids are strings.
- Fetch.FetchSingle: the unbounded `while True` loop is followed over a finite trace of attempts. A trace used up without an ending attempt stands for a loop that is still retrying, not for one that gave up.
- Text.Lower: lower-cases ASCII letters only. Python's `str.lower` also lower-cases non-ASCII letters, which the model leaves as they are.
- Aggregate.Join: requires every series key to be a catalogue id. `main` meets this, because the fetched stations are exactly the catalogue's ids; a foreign key would add a row.
- Aggregate.ResetIndex: requires a station-indexed frame without a station column, which is the shape the join gives it in `main`. The column it adds carries the intended label `IDStazione`, not the `index` the code gives it whenever some station reports a date (see Findings).
- Aggregate.MergeDays: stated only for series covering every catalogue station, which is what `main` passes.

## Findings

| source | as written | input that shows it | evidently intended | confidence | as-written member | corrected member |
|---|---|---|---|---|---|---|
| update_automation/update_temp.py:66-68 | `from_dict` builds the series frame with an unnamed index; `concat` keeps an index name only when all non-empty inputs share it, so whenever some station reports a date `reset_index` inserts a column labelled `index` | a catalogue with a station whose page has at least one matched entry | the comment on line 68 brings `IDStazione` back as a column, so the written file has an `IDStazione` column | medium: not executed; it rests on pandas' rule for the index name of `concat` | Aggregate.ResetLabelAsWritten | Aggregate.ResetLabelCorrected |

=== FILE: aggregate.dfy ===
/**
 * The table-building part of `main`: the station catalogue is deduplicated on
 * `IDStazione` (first row kept) and indexed by it, joined column-wise with the
 * per-station series (`pd.concat(axis=1)`), the temperature script turns the
 * index back into a column, seven catalogue columns are dropped when present,
 * and every missing cell becomes 0.
 */
module Aggregate {
  import opened Variants
  import opened Fetch
  import opened Extractor
  import opened Results

  /**
   * A column of the table. Catalogue columns and date columns are told apart,
   * so a catalogue column and a date with the same label are two columns, as in
   * the joined data frame.
   */
  datatype Column = Attribute(name: string) | Day(date: string) | StationColumn

  /**
   * The label pandas shows for a column. The restored station column carries
   * `IDStazione`, the label the temperature script means it to have (see
   * `ResetLabelAsWritten` for the label it gets as written).
   */
  function Label(c: Column): string {
    match c
    case Attribute(name) => name
    case Day(date) => date
    case StationColumn => "IDStazione"
  }

  /** The catalogue columns `main` drops: river, province, municipality, extra label, instrument, ground elevation, sensor network id. */
  const Excluded: set<string> := {"Fiume", "Provincia", "Comune", "StazioneExtra", "Strumento", "QuotaTerra", "IDSensoreRete"}

  /** One catalogue line: its `IDStazione` and its other columns. */
  datatype Station = Station(id: StationId, attributes: map<string, Cell>)

  /** One table row: the station it belongs to and its cells by column. */
  datatype Row = Row(station: StationId, cells: map<Column, Cell>)

  /** A data frame: its columns, its rows in order, and whether `IDStazione` is the index (true) or a column. */
  datatype Frame = Frame(columns: set<Column>, rows: seq<Row>, indexed: bool)

  /** Every row has exactly one cell per column. */
  predicate WellFormed(f: Frame) {
    forall i :: 0 <= i < |f.rows| ==> f.rows[i].cells.Keys == f.columns
  }

  /** The station ids of a run of catalogue lines. */
  function Ids(stations: seq<Station>): (ids: set<StationId>)
    ensures forall i :: 0 <= i < |stations| ==> stations[i].id in ids
  {
    set i | 0 <= i < |stations| :: stations[i].id
  }

  /** Position of the first line with `id`, or the length when there is none. */
  function FirstIndex(stations: seq<Station>, id: StationId): (k: nat)
    ensures k <= |stations|
    ensures k < |stations| ==> stations[k].id == id
    ensures forall j :: 0 <= j < k ==> stations[j].id != id
    decreases |stations|
  {
    if stations == [] then 0
    else if stations[0].id == id then 0
    else 1 + FirstIndex(stations[1..], id)
  }

  /** Appending a line leaves the first position of an id already present, and gives a new id the last position. */
  lemma FirstIndexSnoc(init: seq<Station>, x: Station, id: StationId)
    ensures id in Ids(init) ==> FirstIndex(init + [x], id) == FirstIndex(init, id)
    ensures id !in Ids(init) && x.id == id ==> FirstIndex(init + [x], id) == |init|
  {
    var s := init + [x];
    var k := FirstIndex(init, id);
    if id in Ids(init) {
      var i :| 0 <= i < |init| && init[i].id == id;
      assert k <= i;
      assert s[k].id == id;
      assert forall j :: 0 <= j < k ==> s[j].id == init[j].id;
    } else if x.id == id {
      assert s[|init|].id == id;
      assert forall j :: 0 <= j < |init| ==> s[j].id == init[j].id && init[j].id in Ids(init);
    }
  }

  /** `drop_duplicates(subset="IDStazione")`: a line is kept unless an earlier line has its id. */
  function DropDuplicates(stations: seq<Station>): (r: seq<Station>)
    ensures |r| <= |stations|
    decreases |stations|
  {
    if stations == [] then []
    else
      var init := stations[..|stations| - 1];
      var x := stations[|stations| - 1];
      var r0 := DropDuplicates(init);
      if x.id in Ids(r0) then r0 else r0 + [x]
  }

  /** A catalogue without repeated ids comes through deduplication unchanged. */
  lemma {:induction false} DistinctIdsKept(stations: seq<Station>)
    requires forall i, j :: 0 <= i < j < |stations| ==> stations[i].id != stations[j].id
    ensures DropDuplicates(stations) == stations
    decreases |stations|
  {
    if stations != [] {
      var init := stations[..|stations| - 1];
      var x := stations[|stations| - 1];
      assert init + [x] == stations;
      DistinctIdsKept(init);
      assert forall i :: 0 <= i < |init| ==> init[i].id != x.id;
    }
  }

  /** Appending a line adds its id to the ids. */
  lemma IdsSnoc(init: seq<Station>, x: Station)
    ensures Ids(init + [x]) == Ids(init) + {x.id}
  {
    var s := init + [x];
    assert forall i :: 0 <= i < |init| ==> s[i] == init[i];
    assert s[|init|] == x;
  }

  /** An id present in the lines has its first position inside them. */
  lemma FirstIndexPresent(stations: seq<Station>, id: StationId)
    requires id in Ids(stations)
    ensures FirstIndex(stations, id) < |stations|
  {
    var i :| 0 <= i < |stations| && stations[i].id == id;
  }

  /** Deduplication loses no id and adds none. */
  lemma {:induction false} DropDuplicatesIds(stations: seq<Station>)
    ensures Ids(DropDuplicates(stations)) == Ids(stations)
    decreases |stations|
  {
    if stations != [] {
      var init := stations[..|stations| - 1];
      var x := stations[|stations| - 1];
      assert init + [x] == stations;
      DropDuplicatesIds(init);
      IdsSnoc(init, x);
      IdsSnoc(DropDuplicates(init), x);
    }
  }

  /** Every kept line is the first catalogue line with its id. */
  lemma {:induction false} DropDuplicatesKeepsFirst(stations: seq<Station>)
    ensures var r := DropDuplicates(stations);
            forall k :: 0 <= k < |r| ==> FirstIndex(stations, r[k].id) < |stations| && r[k] == stations[FirstIndex(stations, r[k].id)]
    decreases |stations|
  {
    if stations != [] {
      var init := stations[..|stations| - 1];
      var x := stations[|stations| - 1];
      assert init + [x] == stations;
      DropDuplicatesKeepsFirst(init);
      DropDuplicatesIds(init);
      var r0 := DropDuplicates(init);
      forall k | 0 <= k < |r0|
        ensures FirstIndex(stations, r0[k].id) < |init| && r0[k] == stations[FirstIndex(stations, r0[k].id)]
      {
        assert r0[k].id in Ids(r0);
        FirstIndexSnoc(init, x, r0[k].id);
        FirstIndexPresent(init, r0[k].id);
        assert stations[FirstIndex(init, r0[k].id)] == init[FirstIndex(init, r0[k].id)];
      }
      if x.id !in Ids(r0) {
        FirstIndexSnoc(init, x, x.id);
      }
    }
  }

  /** Kept lines stay in catalogue order. */
  lemma {:induction false} DropDuplicatesKeepsOrder(stations: seq<Station>)
    ensures var r := DropDuplicates(stations);
            forall k1, k2 :: 0 <= k1 < k2 < |r| ==> FirstIndex(stations, r[k1].id) < FirstIndex(stations, r[k2].id)
    decreases |stations|
  {
    if stations != [] {
      var init := stations[..|stations| - 1];
      var x := stations[|stations| - 1];
      assert init + [x] == stations;
      DropDuplicatesKeepsOrder(init);
      DropDuplicatesIds(init);
      var r0 := DropDuplicates(init);
      forall k | 0 <= k < |r0|
        ensures FirstIndex(stations, r0[k].id) == FirstIndex(init, r0[k].id) < |init|
      {
        assert r0[k].id in Ids(r0);
        FirstIndexSnoc(init, x, r0[k].id);
        FirstIndexPresent(init, r0[k].id);
      }
      if x.id !in Ids(r0) {
        FirstIndexSnoc(init, x, x.id);
      }
    }
  }

  /** A deduplicated catalogue never repeats an id. */
  lemma DeduplicatedIdsDistinct(stations: seq<Station>)
    ensures var r := DropDuplicates(stations);
            forall k1, k2 :: 0 <= k1 < k2 < |r| ==> r[k1].id != r[k2].id
  {
    DropDuplicatesKeepsOrder(stations);
  }

  /** The date columns: every date some station's series has. */
  function DayColumns(series: map<StationId, Series>): set<Column> {
    set s, d | s in series.Keys && d in series[s].Keys :: Day(d)
  }

  /** The catalogue columns other than `IDStazione`. */
  function AttributeColumns(names: set<string>): set<Column> {
    set n | n in names :: Attribute(n)
  }

  /** The joined cell of a station in a column: its catalogue value or its reading, missing when absent. */
  function JoinedCell(st: Station, series: map<StationId, Series>, c: Column): Cell {
    match c
    case Attribute(name) => if name in st.attributes then st.attributes[name] else Missing
    case Day(date) => if st.id in series && date in series[st.id] then series[st.id][date] else Missing
    case StationColumn => Str(st.id)
  }

  /**
   * `pd.concat([stazioni, DataFrame.from_dict(series, orient="index")], axis=1)`:
   * one row per catalogue station in catalogue order, with the catalogue columns
   * and one column per date any station reported.
   */
  function Join(names: set<string>, stations: seq<Station>, series: map<StationId, Series>): (f: Frame)
    requires series.Keys <= Ids(stations)
    ensures WellFormed(f) && f.indexed
    ensures f.columns == AttributeColumns(names) + DayColumns(series)
    ensures |f.rows| == |stations|
    ensures forall i :: 0 <= i < |stations| ==> f.rows[i].station == stations[i].id
    ensures forall i, c :: 0 <= i < |stations| && c in f.rows[i].cells ==> f.rows[i].cells[c] == JoinedCell(stations[i], series, c)
  {
    var columns := AttributeColumns(names) + DayColumns(series);
    Frame(columns,
          seq(|stations|, i requires 0 <= i < |stations| =>
            Row(stations[i].id, map c | c in columns :: JoinedCell(stations[i], series, c))),
          true)
  }

  /** `reset_index()`: the station id becomes a column, labelled `IDStazione`; every other cell stays. */
  function ResetIndex(f: Frame): (g: Frame)
    requires f.indexed && StationColumn !in f.columns
    ensures !g.indexed
    ensures g.columns == f.columns + {StationColumn}
    ensures |g.rows| == |f.rows|
    ensures forall i :: 0 <= i < |f.rows| ==>
              && g.rows[i].station == f.rows[i].station
              && g.rows[i].cells == f.rows[i].cells[StationColumn := Str(f.rows[i].station)]
  {
    Frame(f.columns + {StationColumn},
          seq(|f.rows|, i requires 0 <= i < |f.rows| =>
            Row(f.rows[i].station, f.rows[i].cells[StationColumn := Str(f.rows[i].station)])),
          false)
  }

  /**
   * The index name pandas gives the result of `concat` along the columns. When
   * no station reports a date, `from_dict` builds an empty frame, which `concat`
   * drops before it combines the indexes, so the catalogue's name stays.
   * Otherwise the result carries the inputs' common name, or none when they
   * differ.
   */
  function JoinedIndexName(catalogIndex: Option<string>, seriesIndex: Option<string>,
                           series: map<StationId, Series>): (n: Option<string>)
    ensures DayColumns(series) == {} ==> n == catalogIndex
    ensures DayColumns(series) != {} ==> (n.Some? <==> catalogIndex.Some? && catalogIndex == seriesIndex)
    ensures n.Some? ==> n == catalogIndex
  {
    if DayColumns(series) == {} || catalogIndex == seriesIndex then catalogIndex else None
  }

  /**
   * The label `reset_index()` gives the column it inserts: the index's name, and
   * for an unnamed index `index`, or `level_0` when a column `index` exists.
   */
  function ResetLabel(indexName: Option<string>, labels: set<string>): (l: string)
    ensures indexName.Some? ==> l == indexName.value
    ensures indexName.None? ==> l in {"index", "level_0"}
  {
    match indexName
    case Some(n) => n
    case None => if "index" in labels then "level_0" else "index"
  }

  /**
   * As written, the temperature script's restored column is labelled
   * `IDStazione` only when no station reports a date. `DataFrame.from_dict`
   * builds the series frame with an unnamed index, so as soon as that frame is
   * not empty the joined index loses the catalogue's index name, and
   * `reset_index` falls back to `index`.
   */
  lemma ResetLabelAsWritten(labels: set<string>, series: map<StationId, Series>)
    ensures var l := ResetLabel(JoinedIndexName(Some("IDStazione"), None, series), labels);
            && (l == Label(StationColumn) <==> DayColumns(series) == {})
            && (DayColumns(series) != {} && "index" !in labels ==> l == "index")
  {
  }

  /** One station reporting one date already gives the column the label `index`. */
  lemma ResetLabelWitness(id: StationId, date: string, c: Cell)
    ensures ResetLabel(JoinedIndexName(Some("IDStazione"), None, map[id := map[date := c]]), {}) == "index"
  {
    var series := map[id := map[date := c]];
    assert id in series.Keys && date in series[id].Keys;
    assert Day(date) in DayColumns(series);
  }

  /**
   * With the series frame's index named `IDStazione` as well, the joined index
   * keeps that name whatever the stations report, and `reset_index` restores it
   * as the column the model's `ResetIndex` adds, holding each row's station id.
   */
  lemma ResetLabelCorrected(labels: set<string>, series: map<StationId, Series>, f: Frame)
    requires f.indexed && StationColumn !in f.columns
    ensures ResetLabel(JoinedIndexName(Some("IDStazione"), Some("IDStazione"), series), labels) == Label(StationColumn)
    ensures var g := ResetIndex(f);
            && StationColumn in g.columns
            && forall i :: 0 <= i < |g.rows| ==> g.rows[i].cells[StationColumn] == Str(g.rows[i].station)
  {
  }

  /** `drop(columns=labels, errors='ignore')`: every column with one of the labels goes, absent labels are no error. */
  function DropColumns(f: Frame, labels: set<string>): (g: Frame)
    ensures g.indexed == f.indexed
    ensures forall c :: c in g.columns <==> c in f.columns && Label(c) !in labels
    ensures |g.rows| == |f.rows|
    ensures forall i :: 0 <= i < |f.rows| ==> g.rows[i].station == f.rows[i].station
    ensures forall i, c :: 0 <= i < |f.rows| ==>
              (c in g.rows[i].cells <==> c in f.rows[i].cells && Label(c) !in labels)
    ensures forall i, c :: 0 <= i < |f.rows| && c in g.rows[i].cells ==>
              c in f.rows[i].cells && g.rows[i].cells[c] == f.rows[i].cells[c]
  {
    Frame(set c | c in f.columns && Label(c) !in labels,
          seq(|f.rows|, i requires 0 <= i < |f.rows| => DropCells(f.rows[i], labels)),
          f.indexed)
  }

  /** One row with the cells of the dropped labels removed. */
  function DropCells(r: Row, labels: set<string>): Row {
    Row(r.station, map c | c in r.cells && Label(c) !in labels :: r.cells[c])
  }

  /** The value `fillna(0)` leaves in a cell. */
  function Filled(c: Cell): Cell {
    if c.Missing? then Num(0.0) else c
  }

  /** `fillna(0)`: no cell is missing afterwards, and every present cell keeps its value. */
  function FillMissing(f: Frame): (g: Frame)
    ensures g.indexed == f.indexed && g.columns == f.columns
    ensures |g.rows| == |f.rows|
    ensures forall i :: 0 <= i < |f.rows| ==> g.rows[i].station == f.rows[i].station
    ensures forall i :: 0 <= i < |f.rows| ==> g.rows[i].cells.Keys == f.rows[i].cells.Keys
    ensures forall i, c :: 0 <= i < |f.rows| && c in g.rows[i].cells ==>
              !g.rows[i].cells[c].Missing? && (f.rows[i].cells[c].Missing? || g.rows[i].cells[c] == f.rows[i].cells[c])
  {
    Frame(f.columns, seq(|f.rows|, i requires 0 <= i < |f.rows| => FillCells(f.rows[i])), f.indexed)
  }

  /** One row with every missing cell set to 0. */
  function FillCells(r: Row): Row {
    Row(r.station, map c | c in r.cells :: Filled(r.cells[c]))
  }

  /** The joined frame, with `IDStazione` turned back into a column when the variant does so. */
  function Shaped(v: Variant, names: set<string>, catalog: seq<Station>, series: map<StationId, Series>): (g: Frame)
    requires series.Keys <= Ids(catalog)
    ensures WellFormed(g)
    ensures g.indexed <==> !v.idColumn
    ensures g.columns == AttributeColumns(names) + DayColumns(series) + (if v.idColumn then {StationColumn} else {})
    ensures |g.rows| == |DropDuplicates(catalog)|
    ensures forall i :: 0 <= i < |g.rows| ==> g.rows[i].station == DropDuplicates(catalog)[i].id
    ensures forall i, c :: 0 <= i < |g.rows| && c in g.rows[i].cells ==>
              g.rows[i].cells[c] == JoinedCell(DropDuplicates(catalog)[i], series, c)
  {
    DropDuplicatesIds(catalog);
    var joined := Join(names, DropDuplicates(catalog), series);
    if v.idColumn then ResetIndex(joined) else joined
  }

  /** The merge steps of `main`, for the given catalogue columns, catalogue lines and series. */
  function Merge(v: Variant, names: set<string>, catalog: seq<Station>, series: map<StationId, Series>): (f: Frame)
    requires series.Keys <= Ids(catalog)
    ensures WellFormed(f)
    ensures forall i, c :: 0 <= i < |f.rows| && c in f.rows[i].cells ==> !f.rows[i].cells[c].Missing?
    ensures forall c :: c in f.columns ==> Label(c) !in Excluded
  {
    FillMissing(DropColumns(Shaped(v, names, catalog, series), Excluded))
  }

  /** One row per deduplicated catalogue station, in catalogue order. */
  lemma MergeRows(v: Variant, names: set<string>, catalog: seq<Station>, series: map<StationId, Series>)
    requires series.Keys <= Ids(catalog)
    ensures var f := Merge(v, names, catalog, series);
            && |f.rows| == |DropDuplicates(catalog)|
            && forall i :: 0 <= i < |f.rows| ==> f.rows[i].station == DropDuplicates(catalog)[i].id
  {
    assert Merge(v, names, catalog, series) == FillMissing(DropColumns(Shaped(v, names, catalog, series), Excluded));
  }

  /**
   * When every catalogue station reported, each date cell of a row is that
   * station's own reading for the date, 0 where it has none or it is missing.
   */
  lemma MergeDays(v: Variant, names: set<string>, catalog: seq<Station>, series: map<StationId, Series>)
    requires series.Keys == Ids(catalog)
    ensures var f := Merge(v, names, catalog, series);
            forall i, d :: 0 <= i < |f.rows| && Day(d) in f.rows[i].cells ==>
              && f.rows[i].station in series
              && f.rows[i].cells[Day(d)] == Filled(if d in series[f.rows[i].station] then series[f.rows[i].station][d] else Missing)
  {
    var f := Merge(v, names, catalog, series);
    MergeRows(v, names, catalog, series);
    MergeCells(v, names, catalog, series);
    DropDuplicatesIds(catalog);
    forall i, d | 0 <= i < |f.rows| && Day(d) in f.rows[i].cells
      ensures f.rows[i].station in series
    {
      assert DropDuplicates(catalog)[i].id in Ids(DropDuplicates(catalog));
    }
  }

  /**
   * The columns: every catalogue column and every reported date except the
   * seven excluded labels, plus `IDStazione` exactly when the variant resets the index.
   */
  lemma MergeColumns(v: Variant, names: set<string>, catalog: seq<Station>, series: map<StationId, Series>)
    requires series.Keys <= Ids(catalog)
    ensures var f := Merge(v, names, catalog, series);
            && (f.indexed <==> !v.idColumn)
            && (StationColumn in f.columns <==> v.idColumn)
            && (forall n :: Attribute(n) in f.columns <==> n in names && n !in Excluded)
            && (forall d :: Day(d) in f.columns <==> d !in Excluded && exists s :: s in series && d in series[s])
  {
    var f := Merge(v, names, catalog, series);
    var g := Shaped(v, names, catalog, series);
    assert f == FillMissing(DropColumns(g, Excluded));
    assert g.columns == AttributeColumns(names) + DayColumns(series) + (if v.idColumn then {StationColumn} else {});
    forall d ensures Day(d) in DayColumns(series) <==> exists s :: s in series && d in series[s] {
      if Day(d) in DayColumns(series) {
        var s, d' :| s in series.Keys && d' in series[s].Keys && Day(d) == Day(d');
      }
    }
  }

  /**
   * Each cell holds the station's catalogue value, its reading for that date or
   * its id, with 0 wherever that is missing.
   */
  lemma MergeCells(v: Variant, names: set<string>, catalog: seq<Station>, series: map<StationId, Series>)
    requires series.Keys <= Ids(catalog)
    ensures var f := Merge(v, names, catalog, series);
            forall i, c :: 0 <= i < |f.rows| && c in f.rows[i].cells ==>
              f.rows[i].cells[c] == Filled(JoinedCell(DropDuplicates(catalog)[i], series, c))
  {
    var f := Merge(v, names, catalog, series);
    var g := Shaped(v, names, catalog, series);
    assert f == FillMissing(DropColumns(g, Excluded));
    forall i, c | 0 <= i < |f.rows| && c in f.rows[i].cells
      ensures f.rows[i].cells[c] == Filled(JoinedCell(DropDuplicates(catalog)[i], series, c))
    {
      assert c in g.rows[i].cells;
      assert g.rows[i].cells[c] == JoinedCell(DropDuplicates(catalog)[i], series, c);
    }
  }

  /** Dropping labels no column carries leaves the frame as it was. */
  lemma DropAbsentColumns(f: Frame, labels: set<string>)
    requires WellFormed(f)
    requires forall c :: c in f.columns ==> Label(c) !in labels
    ensures DropColumns(f, labels) == f
  {
    var g := DropColumns(f, labels);
    assert g.columns == f.columns;
    assert forall i :: 0 <= i < |f.rows| ==> g.rows[i] == f.rows[i];
  }

  /** Filling two frames that agree cell by cell once filled, and dropping the same labels from both, gives one frame. */
  lemma FilledFramesAgree(g1: Frame, g2: Frame, labels: set<string>)
    requires g1.columns == g2.columns && g1.indexed == g2.indexed && |g1.rows| == |g2.rows|
    requires forall i :: 0 <= i < |g1.rows| ==>
               g1.rows[i].station == g2.rows[i].station && g1.rows[i].cells.Keys == g2.rows[i].cells.Keys
    requires forall i, c :: 0 <= i < |g1.rows| && c in g1.rows[i].cells ==>
               Filled(g1.rows[i].cells[c]) == Filled(g2.rows[i].cells[c])
    ensures FillMissing(DropColumns(g1, labels)) == FillMissing(DropColumns(g2, labels))
  {
    var f1 := FillMissing(DropColumns(g1, labels));
    var f2 := FillMissing(DropColumns(g2, labels));
    forall i | 0 <= i < |f1.rows| ensures f1.rows[i] == f2.rows[i] {
      FilledRowsAgree(g1.rows[i], g2.rows[i], labels);
    }
  }

  /** The row-level step of `FilledFramesAgree`. */
  lemma FilledRowsAgree(r1: Row, r2: Row, labels: set<string>)
    requires r1.station == r2.station && r1.cells.Keys == r2.cells.Keys
    requires forall c :: c in r1.cells ==> Filled(r1.cells[c]) == Filled(r2.cells[c])
    ensures FillCells(DropCells(r1, labels)) == FillCells(DropCells(r2, labels))
  {
    assert DropCells(r1, labels).cells.Keys == DropCells(r2, labels).cells.Keys;
  }

  /**
   * After the fill step a missing reading and a reading of 0.0 are the same
   * cell: series that differ only there give the same table. This is where the
   * temperature variant's missing marker and the rainfall variant's 0.0 meet.
   */
  lemma FillErasesMissing(v: Variant, names: set<string>, catalog: seq<Station>, s1: map<StationId, Series>, s2: map<StationId, Series>)
    requires s1.Keys == s2.Keys && s1.Keys <= Ids(catalog)
    requires forall id :: id in s1 ==> s1[id].Keys == s2[id].Keys
    requires forall id, d :: id in s1 && d in s1[id] ==> Filled(s1[id][d]) == Filled(s2[id][d])
    ensures Merge(v, names, catalog, s1) == Merge(v, names, catalog, s2)
  {
    var g1 := Shaped(v, names, catalog, s1);
    var g2 := Shaped(v, names, catalog, s2);
    assert DayColumns(s1) == DayColumns(s2);
    var stations := DropDuplicates(catalog);
    forall i, c | 0 <= i < |g1.rows| && c in g1.rows[i].cells
      ensures Filled(g1.rows[i].cells[c]) == Filled(g2.rows[i].cells[c])
    {
      assert Filled(JoinedCell(stations[i], s1, c)) == Filled(JoinedCell(stations[i], s2, c));
    }
    FilledFramesAgree(g1, g2, Excluded);
    assert Merge(v, names, catalog, s1) == FillMissing(DropColumns(g1, Excluded));
    assert Merge(v, names, catalog, s2) == FillMissing(DropColumns(g2, Excluded));
  }

  /**
   * Two stations, the first reporting `x` on day `d` and the second nothing: two
   * rows in catalogue order, the day a column, `x` in the first row and 0 in the second.
   */
  lemma TwoStationExample(v: Variant, a: StationId, b: StationId, d: string, x: real)
    requires a != b && d !in Excluded
    ensures var catalog := [Station(a, map[]), Station(b, map[])];
            var series := map[a := map[d := Num(x)], b := map[]];
            && series.Keys <= Ids(catalog)
            && var f := Merge(v, {}, catalog, series);
            && |f.rows| == 2
            && f.rows[0].station == a && f.rows[1].station == b
            && Day(d) in f.columns
            && f.rows[0].cells[Day(d)] == Num(x)
            && f.rows[1].cells[Day(d)] == Num(0.0)
  {
    var catalog := [Station(a, map[]), Station(b, map[])];
    var series: map<StationId, Series> := map[a := map[d := Num(x)], b := map[]];
    assert JoinedCell(catalog[0], series, Day(d)) == Num(x);
    assert JoinedCell(catalog[1], series, Day(d)) == Missing by {
      assert series[b] == map[];
    }
    assert DropDuplicates(catalog) == catalog by {
      DistinctIdsKept(catalog);
    }
    assert series.Keys <= Ids(catalog) by {
      assert catalog[0].id == a && catalog[1].id == b;
    }
    var f := Merge(v, {}, catalog, series);
    assert |f.rows| == 2 && f.rows[0].station == a && f.rows[1].station == b by {
      MergeRows(v, {}, catalog, series);
    }
    assert Day(d) in f.columns by {
      MergeColumns(v, {}, catalog, series);
      assert a in series && d in series[a];
    }
    assert f.rows[0].cells[Day(d)] == Num(x) && f.rows[1].cells[Day(d)] == Num(0.0) by {
      MergeCells(v, {}, catalog, series);
    }
  }
}

=== FILE: collect.dfy ===
/**
 * The collection loop of `fetch_station_data_parallel`: every submitted station
 * is fetched on a worker, and results are stored in `htmls` in the order the
 * workers finish, which may be any order of the submitted stations.
 */
module Collect {
  import opened Results
  import opened Variants
  import opened Fetch

  /** Every station named among the finished fetches. */
  function Stations(done: seq<Fetched>): set<StationId> {
    set i | 0 <= i < |done| :: done[i].station
  }

  /** `htmls[stazione] = html` for each finished fetch, in completion order. */
  function Collect(done: seq<Fetched>): (htmls: map<StationId, string>)
    ensures htmls.Keys == Stations(done)
    decreases |done|
  {
    if done == [] then map[]
    else
      var init := done[..|done| - 1];
      var last := done[|done| - 1];
      assert forall i :: 0 <= i < |init| ==> init[i] == done[i];
      assert Stations(done) == Stations(init) + {last.station};
      Collect(init)[last.station := last.html]
  }

  /** When each station always comes with the same page, the collected map holds exactly that page. */
  lemma {:induction false} CollectAgrees(done: seq<Fetched>, page: StationId -> string)
    requires forall i :: 0 <= i < |done| ==> done[i].html == page(done[i].station)
    ensures forall s :: s in Collect(done) ==> Collect(done)[s] == page(s)
    decreases |done|
  {
    if done != [] {
      var init := done[..|done| - 1];
      assert forall i :: 0 <= i < |init| ==> init[i] == done[i];
      CollectAgrees(init, page);
    }
  }

  /** The network's answers, station by station: the finite trace of attempts each fetch meets. */
  type Network = StationId -> seq<Attempt>

  /** `order` is a completion order of the submitted `ids`: the same stations, each as often. */
  predicate IsCompletionOrder(order: seq<StationId>, ids: seq<StationId>) {
    multiset(order) == multiset(ids)
  }

  /** Every submitted station's fetch returns within its trace. */
  predicate AllReturn(v: Variant, network: Network, ids: seq<StationId>) {
    forall i :: 0 <= i < |ids| ==> FetchSingle(v, ids[i], network(ids[i])).fetched.Some?
  }

  /** The page a returning station's fetch gives. */
  function PageOf(v: Variant, network: Network, s: StationId): string {
    var r := FetchSingle(v, s, network(s));
    if r.fetched.Some? then r.fetched.value.html else ""
  }

  /** The fetch results in the order the workers finish. */
  function Completions(v: Variant, network: Network, order: seq<StationId>): (done: seq<Fetched>)
    requires AllReturn(v, network, order)
    ensures |done| == |order|
    ensures forall i :: 0 <= i < |order| ==> done[i] == Fetched(order[i], PageOf(v, network, order[i]))
  {
    seq(|order|, i requires 0 <= i < |order| => FetchSingle(v, order[i], network(order[i])).fetched.value)
  }

  /** A completion order holds exactly the submitted stations. */
  lemma SameMembers(order: seq<StationId>, ids: seq<StationId>)
    requires IsCompletionOrder(order, ids)
    ensures forall s :: s in order <==> s in ids
  {
    forall s ensures s in order <==> s in ids {
      assert s in order <==> s in multiset(order);
      assert s in ids <==> s in multiset(ids);
    }
  }

  /** The completions carry one result for every submitted station. */
  lemma CompletionsCoverIds(v: Variant, network: Network, order: seq<StationId>, ids: seq<StationId>)
    requires IsCompletionOrder(order, ids)
    requires AllReturn(v, network, order)
    ensures Stations(Completions(v, network, order)) == set i | 0 <= i < |ids| :: ids[i]
  {
    SameMembers(order, ids);
    var done := Completions(v, network, order);
    forall s | s in Stations(done) ensures s in ids {
      var i :| 0 <= i < |done| && done[i].station == s;
      assert s == order[i];
    }
    forall s | s in ids ensures s in Stations(done) {
      var i :| 0 <= i < |order| && order[i] == s;
      assert done[i].station == s;
    }
  }

  lemma AllReturnInAnyOrder(v: Variant, network: Network, order: seq<StationId>, ids: seq<StationId>)
    requires IsCompletionOrder(order, ids)
    ensures AllReturn(v, network, order) <==> AllReturn(v, network, ids)
  {
    SameMembers(order, ids);
    if AllReturn(v, network, order) {
      forall i | 0 <= i < |ids| ensures FetchSingle(v, ids[i], network(ids[i])).fetched.Some? {
        assert ids[i] in order;
        var j :| 0 <= j < |order| && order[j] == ids[i];
      }
    }
    if AllReturn(v, network, ids) {
      forall j | 0 <= j < |order| ensures FetchSingle(v, order[j], network(order[j])).fetched.Some? {
        assert order[j] in ids;
        var i :| 0 <= i < |ids| && ids[i] == order[j];
      }
    }
  }

  /**
   * `fetch_station_data_parallel(ids)` when the workers finish in `order`. It
   * returns nothing (`None`) when some fetch never returns, since the loop over
   * `as_completed` then waits for ever.
   */
  function FetchAll(v: Variant, network: Network, ids: seq<StationId>, order: seq<StationId>): (r: Option<map<StationId, string>>)
    requires IsCompletionOrder(order, ids)
    ensures r.Some? <==> AllReturn(v, network, ids)
    ensures r.Some? ==> r.value.Keys == set i | 0 <= i < |ids| :: ids[i]
    ensures r.Some? ==> forall s :: s in r.value ==> r.value[s] == PageOf(v, network, s)
  {
    AllReturnInAnyOrder(v, network, order, ids);
    if AllReturn(v, network, order) then
      var done := Completions(v, network, order);
      CollectAgrees(done, s => PageOf(v, network, s));
      CompletionsCoverIds(v, network, order, ids);
      Some(Collect(done))
    else
      None
  }

  /** The collected map does not depend on the order in which the workers finish. */
  lemma CompletionOrderIrrelevant(v: Variant, network: Network, ids: seq<StationId>, order1: seq<StationId>, order2: seq<StationId>)
    requires IsCompletionOrder(order1, ids) && IsCompletionOrder(order2, ids)
    ensures FetchAll(v, network, ids, order1) == FetchAll(v, network, ids, order2)
  {
    var r1 := FetchAll(v, network, ids, order1);
    var r2 := FetchAll(v, network, ids, order2);
    if r1.Some? {
      assert r1.value == r2.value;
    }
  }
}

=== FILE: extractor.dfy ===
/**
 * The series extractor `from_html_to_dict`: every entry matched by the
 * `VALUES[n] = new Array("…","dd/mm/yyyy","…","…")` pattern is split on the
 * double quote, keyed by its date field and valued by the variant's reading
 * field; a later entry for the same date overwrites an earlier one.
 */
module Extractor {
  import opened Results
  import opened Text
  import opened Variants

  const Quote: char := '"'

  /** One station's readings: date text to cell. */
  type Series = map<string, Cell>

  /** What `float(text)` returns: a finite number, an infinity (`inf`, or an overflow such as `1e400`) or NaN. */
  datatype Float = Finite(x: real) | Infinite(negative: bool) | NaN

  /** Python's `float(text)`: `None` stands for the `ValueError` it raises. */
  type NumberParser = string -> Option<Float>

  /** The cell a float becomes in the table: pandas takes NaN for a missing value. */
  function CellOf(f: Float): Cell {
    match f
    case Finite(x) => Num(x)
    case Infinite(negative) => Inf(negative)
    case NaN => Missing
  }

  /**
   * What Python's `float` promises about NaN: it comes only from a spelling of
   * `nan` (any case, signed or not, with surrounding white space), so the text
   * holds Latin letters at two positions at least.
   */
  ghost predicate NanSpelled(parse: NumberParser) {
    forall t :: parse(t) == Some(NaN) ==> exists i, j :: 0 <= i < j < |t| && IsLetter(t[i]) && IsLetter(t[j])
  }

  /** The exceptions the extractor lets escape. */
  datatype ExtractError =
    | FieldMissing(entry: string, field: nat)   // IndexError on `parts[field]`
    | NotANumber(text: string)                  // ValueError from `float`

  /** `entry.split('"')[3]`, when the entry has that many parts. */
  function DateOf(entry: string): Option<string> {
    var parts := SplitOn(entry, Quote);
    if |parts| > 3 then Some(parts[3]) else None
  }

  /** One iteration of the loop body: the date key and the cell stored under it. */
  function ReadEntry(v: Variant, parse: NumberParser, entry: string): (r: Result<(string, Cell), ExtractError>)
    ensures r.Ok? ==> DateOf(entry) == Some(r.value.0)
  {
    var parts := SplitOn(entry, Quote);
    if |parts| <= 3 then Err(FieldMissing(entry, 3))
    else if |parts| <= v.valueField then Err(FieldMissing(entry, v.valueField))
    else
      var raw := parts[v.valueField];
      if raw == "" then Ok((parts[3], v.emptyValue))
      else
        match parse(raw)
        case None => Err(NotANumber(raw))
        case Some(x) => Ok((parts[3], CellOf(x)))
  }

  /** Every date field among the entries. */
  function Dates(entries: seq<string>): set<string>
    decreases |entries|
  {
    if entries == [] then {}
    else
      var last := DateOf(entries[|entries| - 1]);
      Dates(entries[..|entries| - 1]) + (if last.Some? then {last.value} else {})
  }

  /**
   * `from_html_to_dict` applied to the matches of the pattern, in scan order.
   * The first entry whose fields cannot be read raises.
   */
  function Extract(v: Variant, parse: NumberParser, entries: seq<string>): (r: Result<Series, ExtractError>)
    ensures entries == [] ==> r == Ok(map[])
    ensures r.Ok? <==> forall i :: 0 <= i < |entries| ==> ReadEntry(v, parse, entries[i]).Ok?
    decreases |entries|
  {
    if entries == [] then Ok(map[])
    else
      var init := entries[..|entries| - 1];
      var last := entries[|entries| - 1];
      assert forall i :: 0 <= i < |init| ==> init[i] == entries[i];
      match Extract(v, parse, init)
      case Err(e) => Err(e)
      case Ok(m) =>
        match ReadEntry(v, parse, last)
        case Err(e) => Err(e)
        case Ok(dc) =>
          Ok(m[dc.0 := dc.1])
  }

  /** The series has exactly the entries' dates as keys. */
  lemma {:induction false} ExtractKeys(v: Variant, parse: NumberParser, entries: seq<string>)
    requires Extract(v, parse, entries).Ok?
    ensures Extract(v, parse, entries).value.Keys == Dates(entries)
    decreases |entries|
  {
    if entries != [] {
      ExtractKeys(v, parse, entries[..|entries| - 1]);
    }
  }

  /** There are at most as many dates as entries. */
  lemma {:induction false} DatesBound(entries: seq<string>)
    ensures |Dates(entries)| <= |entries|
    decreases |entries|
  {
    if entries != [] {
      DatesBound(entries[..|entries| - 1]);
    }
  }

  /** Collapsing duplicates only shrinks: the series has at most one date per matched entry. */
  lemma SeriesSize(v: Variant, parse: NumberParser, entries: seq<string>)
    requires Extract(v, parse, entries).Ok?
    ensures |Extract(v, parse, entries).value| <= |entries|
  {
    DatesBound(entries);
    ExtractKeys(v, parse, entries);
    assert |Extract(v, parse, entries).value| == |Extract(v, parse, entries).value.Keys|;
  }

  /**
   * Last write wins: the series holds, for an entry's date, that entry's cell
   * whenever no later entry carries the same date.
   */
  lemma {:induction false} LaterEntryWins(v: Variant, parse: NumberParser, entries: seq<string>, i: nat)
    requires Extract(v, parse, entries).Ok?
    requires i < |entries|
    requires forall j :: i < j < |entries| ==> DateOf(entries[j]) != DateOf(entries[i])
    ensures ReadEntry(v, parse, entries[i]).Ok?
    ensures var (d, c) := ReadEntry(v, parse, entries[i]).value;
            d in Extract(v, parse, entries).value && Extract(v, parse, entries).value[d] == c
    decreases |entries|
  {
    var init := entries[..|entries| - 1];
    if i < |init| {
      assert forall j :: i < j < |init| ==> init[j] == entries[j];
      LaterEntryWins(v, parse, init, i);
      assert init[i] == entries[i];
    }
  }

  /** No cell of the series is missing when no readable entry yields a missing marker. */
  lemma {:induction false} EntriesNeverMissing(v: Variant, parse: NumberParser, entries: seq<string>)
    requires forall i :: 0 <= i < |entries| && ReadEntry(v, parse, entries[i]).Ok? ==>
               !ReadEntry(v, parse, entries[i]).value.1.Missing?
    ensures Extract(v, parse, entries).Ok? ==>
              forall d :: d in Extract(v, parse, entries).value ==> !Extract(v, parse, entries).value[d].Missing?
    decreases |entries|
  {
    if entries != [] {
      var init := entries[..|entries| - 1];
      assert forall i :: 0 <= i < |init| ==> init[i] == entries[i];
      EntriesNeverMissing(v, parse, init);
    }
  }

  /** Every cell of the series was read from an entry carrying its date. */
  lemma {:induction false} CellsFromEntries(v: Variant, parse: NumberParser, entries: seq<string>)
    requires Extract(v, parse, entries).Ok?
    ensures forall d :: d in Extract(v, parse, entries).value ==>
              exists i :: 0 <= i < |entries| && ReadEntry(v, parse, entries[i]) == Ok((d, Extract(v, parse, entries).value[d]))
    decreases |entries|
  {
    if entries != [] {
      var init := entries[..|entries| - 1];
      var last := entries[|entries| - 1];
      CellsFromEntries(v, parse, init);
      var m := Extract(v, parse, init).value;
      var dc := ReadEntry(v, parse, last).value;
      var s := Extract(v, parse, entries).value;
      assert s == m[dc.0 := dc.1];
      forall d | d in s
        ensures exists i :: 0 <= i < |entries| && ReadEntry(v, parse, entries[i]) == Ok((d, s[d]))
      {
        if d == dc.0 {
          assert ReadEntry(v, parse, entries[|entries| - 1]) == Ok((d, s[d]));
        } else {
          var i :| 0 <= i < |init| && ReadEntry(v, parse, init[i]) == Ok((d, m[d]));
          assert entries[i] == init[i];
        }
      }
    }
  }

  /** The variant's reading field of the entry is text `float` reads as NaN. */
  predicate NanField(v: Variant, parse: NumberParser, entry: string) {
    var parts := SplitOn(entry, Quote);
    |parts| > v.valueField && parts[v.valueField] != "" && parse(parts[v.valueField]) == Some(NaN)
  }

  /**
   * The rainfall extractor stores a missing marker only for a reading `float`
   * takes for NaN; an empty field becomes 0.0.
   */
  lemma RainfallMissingOnlyFromNaN(parse: NumberParser, entries: seq<string>)
    ensures Extract(Rainfall, parse, entries).Ok? ==>
              forall d :: d in Extract(Rainfall, parse, entries).value && Extract(Rainfall, parse, entries).value[d].Missing? ==>
                exists i :: 0 <= i < |entries| && DateOf(entries[i]) == Some(d) && NanField(Rainfall, parse, entries[i])
  {
    if Extract(Rainfall, parse, entries).Ok? {
      var s := Extract(Rainfall, parse, entries).value;
      CellsFromEntries(Rainfall, parse, entries);
      forall d | d in s && s[d].Missing?
        ensures exists i :: 0 <= i < |entries| && DateOf(entries[i]) == Some(d) && NanField(Rainfall, parse, entries[i])
      {
        var i :| 0 <= i < |entries| && ReadEntry(Rainfall, parse, entries[i]) == Ok((d, s[d]));
        RainfallEntryMissing(parse, entries[i]);
      }
    }
  }

  /** A rainfall entry read as missing has a reading field `float` takes for NaN. */
  lemma RainfallEntryMissing(parse: NumberParser, entry: string)
    requires ReadEntry(Rainfall, parse, entry).Ok? && ReadEntry(Rainfall, parse, entry).value.1.Missing?
    ensures DateOf(entry) == Some(ReadEntry(Rainfall, parse, entry).value.0)
    ensures NanField(Rainfall, parse, entry)
  {
  }

  /** Both variants key the same entries by the same dates; they differ only in the cells. */
  lemma VariantsAgreeOnDates(parse1: NumberParser, parse2: NumberParser, entries: seq<string>)
    requires Extract(Temperature, parse1, entries).Ok?
    requires Extract(Rainfall, parse2, entries).Ok?
    ensures Extract(Temperature, parse1, entries).value.Keys == Extract(Rainfall, parse2, entries).value.Keys
  {
    ExtractKeys(Temperature, parse1, entries);
    ExtractKeys(Rainfall, parse2, entries);
  }

  /** The loop stops at the first entry it cannot read, and raises that entry's error. */
  lemma {:induction false} FirstBadEntryRaises(v: Variant, parse: NumberParser, entries: seq<string>, k: nat)
    requires k < |entries|
    requires forall j :: 0 <= j < k ==> ReadEntry(v, parse, entries[j]).Ok?
    requires ReadEntry(v, parse, entries[k]).Err?
    ensures Extract(v, parse, entries) == Err(ReadEntry(v, parse, entries[k]).error)
    decreases |entries|
  {
    var init := entries[..|entries| - 1];
    if k < |init| {
      assert forall j :: 0 <= j < k ==> init[j] == entries[j];
      assert init[k] == entries[k];
      FirstBadEntryRaises(v, parse, init, k);
    }
  }
}

=== FILE: fetch.dfy ===
/**
 * `fetch_single_station`: one station's page is requested until an attempt
 * ends the loop. An attempt is what the network answered; the answers the
 * station would get, in order, are a finite trace, and a trace used up
 * without an ending attempt means the loop is still retrying.
 */
module Fetch {
  import opened Results
  import opened Text
  import opened Variants

  /** `IDStazione`. */
  type StationId = string

  /** The body read from the response, or the error its UTF-8 decoding raised. */
  datatype Body = Decoded(text: string) | Undecodable(error: string)

  /** One attempt: a response (its `Content-Type` header, if any, and its body), or an exception's `str(e)`. */
  datatype Attempt =
    | Response(contentType: Option<string>, body: Body)
    | Raised(error: string)

  /** What the loop does after one attempt: return the given page text, or sleep and try again. */
  datatype Step = Finished(html: string) | Retry(wait: nat)

  /** `retries`: set to 1 before the loop and never changed. */
  const Retries: nat := 1

  /** Seconds of sleep per retry count. */
  const BaseDelay: nat := 10

  /** The `except` branch for an exception whose text is `message`. */
  function OnException(v: Variant, message: string): (s: Step)
    ensures s.Finished? <==> v.skips && Contains(message, "500")
    ensures s.Finished? ==> s.html == ""
    ensures s.Retry? ==> s.wait == 10
  {
    if v.skips && Contains(message, "500") then Finished("")
    else Retry(Retries * BaseDelay)
  }

  /** One pass of the loop body. */
  function Classify(v: Variant, a: Attempt): (s: Step)
    ensures s.Finished? && s.html != "" ==> a.Response? && a.body == Decoded(s.html)
    ensures !v.skips ==> (s.Finished? <==> a.Response? && a.body.Decoded?)
    ensures s.Retry? ==> s.wait == 10
    ensures a.Raised? ==> s == OnException(v, a.error)
    ensures a.Response? && a.body.Undecodable? && !(v.skips && Contains(Lower(a.contentType.GetOr("")), "image")) ==>
              s == OnException(v, a.body.error)
  {
    match a
    case Raised(e) => OnException(v, e)
    case Response(contentType, body) =>
      if v.skips && Contains(Lower(contentType.GetOr("")), "image") then Finished("")
      else
        match body
        case Decoded(text) => Finished(text)
        case Undecodable(e) => OnException(v, e)
  }

  /** The pair `(stazione, html)` the function returns. */
  datatype Fetched = Fetched(station: StationId, html: string)

  /** The loop's course over a trace: what it returned, if it did, and every sleep before that. */
  datatype Run = Run(fetched: Option<Fetched>, waits: seq<nat>)

  /**
   * The `while True` loop over the trace `attempts`. It returns exactly when some
   * attempt ends it; the station it returns is always the one asked for, and every
   * sleep lasts `retries * 10` = 10 seconds.
   */
  function FetchSingle(v: Variant, station: StationId, attempts: seq<Attempt>): (r: Run)
    ensures r.fetched.Some? ==> r.fetched.value.station == station
    ensures r.fetched.None? <==> forall i :: 0 <= i < |attempts| ==> Classify(v, attempts[i]).Retry?
    ensures forall i :: 0 <= i < |r.waits| ==> r.waits[i] == 10
    ensures |r.waits| <= |attempts|
    decreases |attempts|
  {
    if attempts == [] then Run(None, [])
    else
      match Classify(v, attempts[0])
      case Finished(html) => Run(Some(Fetched(station, html)), [])
      case Retry(wait) =>
        var later := FetchSingle(v, station, attempts[1..]);
        assert forall i :: 1 <= i < |attempts| ==> attempts[1..][i - 1] == attempts[i];
        Run(later.fetched, [wait] + later.waits)
  }

  /** The same loop written as the script writes it, stepping through the trace. */
  method FetchLoop(v: Variant, station: StationId, attempts: seq<Attempt>) returns (fetched: Option<Fetched>, waits: seq<nat>)
    ensures Run(fetched, waits) == FetchSingle(v, station, attempts)
  {
    waits := [];
    var i := 0;
    while i < |attempts|
      invariant 0 <= i <= |attempts|
      invariant FetchSingle(v, station, attempts) ==
                  Run(FetchSingle(v, station, attempts[i..]).fetched, waits + FetchSingle(v, station, attempts[i..]).waits)
    {
      assert attempts[i..][1..] == attempts[i + 1..];
      match Classify(v, attempts[i]) {
        case Finished(html) =>
          return Some(Fetched(station, html)), waits;
        case Retry(wait) =>
          waits := waits + [wait];
      }
      i := i + 1;
    }
    fetched := None;
  }

  /**
   * The loop returns at the first attempt that ends it, with that attempt's page,
   * after one 10-second sleep per earlier attempt.
   */
  lemma {:induction false} StopsAtFirstEnding(v: Variant, station: StationId, attempts: seq<Attempt>, k: nat)
    requires k < |attempts|
    requires forall j :: 0 <= j < k ==> Classify(v, attempts[j]).Retry?
    requires Classify(v, attempts[k]).Finished?
    ensures FetchSingle(v, station, attempts) ==
              Run(Some(Fetched(station, Classify(v, attempts[k]).html)), seq(k, _ => 10))
    decreases k
  {
    if k > 0 {
      var rest := attempts[1..];
      assert forall j :: 0 <= j < k - 1 ==> rest[j] == attempts[j + 1];
      StopsAtFirstEnding(v, station, rest, k - 1);
      assert [10] + seq(k - 1, _ => 10) == seq(k, _ => 10);
    }
  }

  /**
   * Under failures that are neither skips nor responses, the loop never returns:
   * after any number of attempts it has only slept, 10 seconds each time.
   */
  lemma {:induction false} PersistentFailureNeverEnds(v: Variant, station: StationId, attempts: seq<Attempt>)
    requires forall i :: 0 <= i < |attempts| ==> attempts[i].Raised? && !(v.skips && Contains(attempts[i].error, "500"))
    ensures FetchSingle(v, station, attempts) == Run(None, seq(|attempts|, _ => 10))
    decreases |attempts|
  {
    if attempts != [] {
      var rest := attempts[1..];
      assert forall i :: 0 <= i < |rest| ==> rest[i] == attempts[i + 1];
      PersistentFailureNeverEnds(v, station, rest);
      assert [10] + seq(|rest|, _ => 10) == seq(|attempts|, _ => 10);
    }
  }

  /**
   * Temperature skips without sleeping: an image response, or an exception whose
   * text contains "500", returns the station with empty content at once.
   */
  lemma TemperatureSkips(station: StationId, a: Attempt, later: seq<Attempt>)
    requires || (a.Response? && Contains(Lower(a.contentType.GetOr("")), "image"))
             || (a.Raised? && Contains(a.error, "500"))
    ensures FetchSingle(Temperature, station, [a] + later) == Run(Some(Fetched(station, "")), [])
  {
  }

  /** Temperature returns the decoded body of any response that is not an image. */
  lemma TemperatureReturnsPage(station: StationId, contentType: Option<string>, text: string, later: seq<Attempt>)
    requires !Contains(Lower(contentType.GetOr("")), "image")
    ensures FetchSingle(Temperature, station, [Response(contentType, Decoded(text))] + later) ==
              Run(Some(Fetched(station, text)), [])
  {
  }

  /**
   * Rainfall has no skip: a decoded response ends the loop with its body, and
   * every exception, a "500" one included, means a 10-second sleep and a retry.
   */
  lemma RainfallNeverSkips(a: Attempt)
    ensures Classify(Rainfall, a).Finished? <==> a.Response? && a.body.Decoded?
    ensures Classify(Rainfall, a).Finished? ==> Classify(Rainfall, a).html == a.body.text
    ensures Classify(Rainfall, a).Retry? ==> Classify(Rainfall, a).wait == 10
  {
  }
}

=== FILE: pattern.dfy ===
/**
 * The text the extractor's pattern
 * `VALUES\[\d+\] = new Array\("\d+","\d+/\d+/\d+","\d+.\d+","\d*.*\d*"\)`
 * matches, and what `split('"')` makes of it. The unescaped `.` matches any
 * character but a newline (a double quote included), and `\d*.*\d*` matches
 * any newline-free text (double quotes included).
 */
module Pattern {
  import opened Results
  import opened Text
  import opened Variants
  import opened Extractor

  /**
   * A character `\d` may match. On a `str` pattern Python's `\d` matches every
   * Unicode decimal digit; the model keeps what all of them share: none is a
   * double quote, a line break or a Latin letter.
   */
  predicate DigitLike(c: char) {
    c != Quote && c != '\n' && !IsLetter(c)
  }

  /** `\d+`: one or more decimal digits. */
  predicate IsDigits(s: string) {
    |s| >= 1 && forall i :: 0 <= i < |s| ==> DigitLike(s[i])
  }

  /** The pieces a match is built from, one per group of the pattern. */
  datatype Record = Record(
    index: string,     // `VALUES[n]`
    station: string,   // 1st quoted field
    day: string, month: string, year: string,   // 2nd quoted field
    whole: string, point: char, fraction: string,  // 3rd quoted field, `\d+.\d+`
    rest: string)      // 4th quoted field, `\d*.*\d*`

  /** The record is one the pattern accepts. */
  predicate Matches(r: Record) {
    && IsDigits(r.index) && IsDigits(r.station)
    && IsDigits(r.day) && IsDigits(r.month) && IsDigits(r.year)
    && IsDigits(r.whole) && r.point != '\n' && IsDigits(r.fraction)
    && '\n' !in r.rest
  }

  /** The 2nd quoted field, `dd/mm/yyyy`. */
  function DateText(r: Record): string {
    r.day + "/" + r.month + "/" + r.year
  }

  /** The 3rd quoted field. */
  function Reading(r: Record): string {
    r.whole + [r.point] + r.fraction
  }

  /** The text between the double quotes of a match, in order. */
  function Pieces(r: Record): seq<string> {
    ["VALUES[" + r.index + "] = new Array(", r.station, ",", DateText(r), ",", Reading(r), ",", r.rest, ")"]
  }

  /** The matched text itself. */
  function EntryText(r: Record): string {
    JoinWith(Pieces(r), Quote)
  }

  /** The matched texts of a run of records, in scan order. */
  function Entries(rs: seq<Record>): (es: seq<string>)
    ensures |es| == |rs|
    ensures forall i :: 0 <= i < |rs| ==> es[i] == EntryText(rs[i])
  {
    seq(|rs|, i requires 0 <= i < |rs| => EntryText(rs[i]))
  }

  /** No match is empty, so the pattern finds nothing in an empty page. */
  lemma MatchNonEmpty(r: Record)
    ensures |EntryText(r)| > 0
  {
    assert |Pieces(r)[0]| > 0;
  }

  /** A run of digits holds no double quote. */
  lemma DigitsQuoteFree(s: string)
    requires IsDigits(s)
    ensures Quote !in s
  {
  }

  /** The pieces before the reading never hold a double quote. */
  lemma HeadPiecesQuoteFree(r: Record)
    requires Matches(r)
    ensures forall k :: 0 <= k < 5 ==> Quote !in Pieces(r)[k]
  {
    DigitsQuoteFree(r.index);
    DigitsQuoteFree(r.station);
    DigitsQuoteFree(r.day);
    DigitsQuoteFree(r.month);
    DigitsQuoteFree(r.year);
    var p := Pieces(r);
    assert p[0] == "VALUES[" + r.index + "] = new Array(";
    assert p[3] == r.day + "/" + r.month + "/" + r.year;
  }

  /**
   * Whatever the wildcard fields hold, a match splits into at least nine parts,
   * the date is `parts[3]` and `parts[5]` is the 3rd quoted field, or only its
   * leading digits when its decimal point is a double quote.
   */
  lemma {:induction false} MatchFields(r: Record)
    requires Matches(r)
    ensures var parts := SplitOn(EntryText(r), Quote);
            && |parts| >= 9
            && parts[1] == r.station
            && parts[3] == DateText(r)
            && parts[5] != ""
            && parts[5] == (if r.point == Quote then r.whole else Reading(r))
  {
    var p := Pieces(r);
    HeadPiecesQuoteFree(r);
    SplitOnJoinPrefix(p, Quote, 5);
    var tail := SplitOn(JoinWith(p[5..], Quote), Quote);
    assert SplitOn(EntryText(r), Quote) == p[..5] + tail;
    SplitOnAround(p[5], JoinWith(p[6..], Quote), Quote);
    assert p[5..][1..] == p[6..];
    SplitOnJoinCons(p[6..], Quote);
    assert p[6..][1..] == p[7..];
    SplitOnAround(p[7], p[8], Quote);
    DigitsQuoteFree(r.whole);
    DigitsQuoteFree(r.fraction);
    if r.point == Quote {
      SplitOnAround(r.whole, r.fraction, Quote);
      SplitOnFree(r.whole, Quote);
    } else {
      SplitOnFree(Reading(r), Quote);
    }
  }

  /** When neither wildcard holds a double quote, the split is exactly the nine pieces. */
  lemma PlainMatchFields(r: Record)
    requires Matches(r)
    requires r.point != Quote && Quote !in r.rest
    ensures SplitOn(EntryText(r), Quote) == Pieces(r)
  {
    HeadPiecesQuoteFree(r);
    DigitsQuoteFree(r.whole);
    DigitsQuoteFree(r.fraction);
    var p := Pieces(r);
    assert Quote !in p[5];
    SplitOnJoin(p, Quote);
  }

  /** Every match is keyed by its date and never misses a field. */
  lemma MatchReadable(v: Variant, parse: NumberParser, r: Record)
    requires Matches(r)
    requires v.valueField < 9
    ensures DateOf(EntryText(r)) == Some(DateText(r))
    ensures ReadEntry(v, parse, EntryText(r)).Err? ==> ReadEntry(v, parse, EntryText(r)).error.NotANumber?
  {
    MatchFields(r);
  }

  /**
   * The temperature extractor reads the 3rd quoted field; the rainfall one reads
   * the 4th, where an empty field becomes 0.0.
   */
  lemma VariantFields(parse: NumberParser, r: Record)
    requires Matches(r)
    requires r.point != Quote && Quote !in r.rest
    ensures ReadEntry(Temperature, parse, EntryText(r)) ==
              (match parse(Reading(r))
               case Some(x) => Ok((DateText(r), CellOf(x)))
               case None => Err(NotANumber(Reading(r))))
    ensures r.rest == "" ==> ReadEntry(Rainfall, parse, EntryText(r)) == Ok((DateText(r), Num(0.0)))
    ensures r.rest != "" ==>
              ReadEntry(Rainfall, parse, EntryText(r)) ==
                (match parse(r.rest)
                 case Some(x) => Ok((DateText(r), CellOf(x)))
                 case None => Err(NotANumber(r.rest)))
  {
    PlainMatchFields(r);
    DigitsQuoteFree(r.whole);
    SplitOnHead(Reading(r), Quote);
    assert Reading(r) != "";
  }

  /**
   * The pattern's unescaped `.` admits a double quote as decimal point; the split
   * then shifts, and the rainfall extractor reads the separator "," instead of
   * the 4th field.
   */
  lemma QuotePointShiftsFields(r: Record)
    requires Matches(r)
    requires r.point == Quote && Quote !in r.rest
    ensures var parts := SplitOn(EntryText(r), Quote);
            |parts| == 10 && parts[5] == r.whole && parts[6] == r.fraction && parts[7] == ","
  {
    HeadPiecesQuoteFree(r);
    DigitsQuoteFree(r.whole);
    DigitsQuoteFree(r.fraction);
    var p := Pieces(r);
    var q := p[..5] + [r.whole, r.fraction] + p[6..];
    assert forall k :: 0 <= k < |q| ==> Quote !in q[k];
    SplitOnJoin(q, Quote);
    JoinShape(r);
  }

  /** With a double quote as decimal point, the match is the join of the pieces with the 3rd field cut in two. */
  lemma JoinShape(r: Record)
    requires r.point == Quote
    ensures JoinWith(Pieces(r)[..5] + [r.whole, r.fraction] + Pieces(r)[6..], Quote) == EntryText(r)
  {
    var p := Pieces(r);
    JoinAppend(p[..5], [r.whole, r.fraction] + p[6..], Quote);
    JoinAppend([r.whole, r.fraction], p[6..], Quote);
    assert [r.whole, r.fraction][1..] == [r.fraction];
    assert p[..5] + [r.whole, r.fraction] + p[6..] == p[..5] + ([r.whole, r.fraction] + p[6..]);
    JoinAppend(p[..5], p[5..], Quote);
    JoinAppend([p[5]], p[6..], Quote);
    assert [p[5]] + p[6..] == p[5..];
    assert p[..5] + p[5..] == p;
  }

  /** A run of digits, a single character and a run of digits hold at most one Latin letter. */
  lemma OneLetterAtMost(r: Record)
    requires Matches(r)
    ensures var t := Reading(r); forall i, j :: 0 <= i < j < |t| ==> !(IsLetter(t[i]) && IsLetter(t[j]))
  {
    var t := Reading(r);
    assert forall k :: 0 <= k < |r.whole| ==> t[k] == r.whole[k];
    assert forall k :: |r.whole| < k < |t| ==> t[k] == r.fraction[k - |r.whole| - 1];
  }

  /** The temperature reading of a match is never text `float` reads as NaN. */
  lemma ReadingNotNan(parse: NumberParser, r: Record)
    requires NanSpelled(parse)
    requires Matches(r)
    ensures var parts := SplitOn(EntryText(r), Quote); |parts| > 5 && parse(parts[5]) != Some(NaN)
  {
    MatchFields(r);
    var t := SplitOn(EntryText(r), Quote)[5];
    if r.point == Quote {
      assert forall k :: 0 <= k < |t| ==> !IsLetter(t[k]);
    } else {
      OneLetterAtMost(r);
    }
  }

  /**
   * The `None` branch of the temperature extractor is dead: the pattern demands
   * digits in the 3rd field, and digits with one character between them never
   * spell NaN, so no match yields a missing marker.
   */
  lemma {:induction false} TemperatureNeverMissing(parse: NumberParser, rs: seq<Record>)
    requires NanSpelled(parse)
    requires forall i :: 0 <= i < |rs| ==> Matches(rs[i])
    ensures Extract(Temperature, parse, Entries(rs)).Ok? ==>
              forall d :: d in Extract(Temperature, parse, Entries(rs)).value ==>
                !Extract(Temperature, parse, Entries(rs)).value[d].Missing?
  {
    var es := Entries(rs);
    forall i | 0 <= i < |es| && ReadEntry(Temperature, parse, es[i]).Ok?
      ensures !ReadEntry(Temperature, parse, es[i]).value.1.Missing?
    {
      TemperatureEntryPresent(parse, rs[i]);
    }
    EntriesNeverMissing(Temperature, parse, es);
  }

  /** A matched entry never gives the temperature extractor a missing marker. */
  lemma TemperatureEntryPresent(parse: NumberParser, r: Record)
    requires NanSpelled(parse)
    requires Matches(r)
    ensures ReadEntry(Temperature, parse, EntryText(r)).Ok? ==> !ReadEntry(Temperature, parse, EntryText(r)).value.1.Missing?
  {
    MatchFields(r);
    ReadingNotNan(parse, r);
    PresentField(Temperature, parse, EntryText(r));
  }

  /** A non-empty field that does not spell NaN is read into a present cell. */
  lemma PresentField(v: Variant, parse: NumberParser, entry: string)
    requires var parts := SplitOn(entry, Quote);
             |parts| > v.valueField && parts[v.valueField] != "" && parse(parts[v.valueField]) != Some(NaN)
    ensures ReadEntry(v, parse, entry).Ok? ==> !ReadEntry(v, parse, entry).value.1.Missing?
  {
  }
}

=== FILE: pipeline.dfy ===
/**
 * `main` end to end: deduplicate the catalogue, fetch every station's page in
 * some completion order, extract each page's series, and merge. The page
 * reader is a parameter; `ScriptReader` is the one both scripts use.
 */
module Pipeline {
  import opened Results
  import opened Variants
  import opened Fetch
  import opened Collect
  import opened Extractor
  import opened Aggregate

  /** `re.findall` of the record pattern: the matched entries of a page, in scan order. */
  type Scanner = string -> seq<string>

  /** `stazioni.index` after deduplication. */
  function IdSeq(stations: seq<Station>): (ids: seq<StationId>)
    ensures |ids| == |stations|
    ensures forall i :: 0 <= i < |stations| ==> ids[i] == stations[i].id
  {
    seq(|stations|, i requires 0 <= i < |stations| => stations[i].id)
  }

  /** `from_html_to_dict` as `main` applies it to one stored page. */
  type PageReader = string -> Result<Series, ExtractError>

  /** The scripts' reader: scan the page for the record pattern, then extract the series. */
  function ScriptReader(v: Variant, parse: NumberParser, scan: Scanner): (read: PageReader)
    ensures forall page :: scan(page) == [] ==> read(page) == Ok(map[])
    ensures forall page :: read(page).Ok? ==> read(page).value.Keys == Dates(scan(page))
  {
    ScanKeys(v, parse, scan);
    page => Extract(v, parse, scan(page))
  }

  /** Every page read without error is keyed by the date fields of its matches. */
  lemma ScanKeys(v: Variant, parse: NumberParser, scan: Scanner)
    ensures forall page :: Extract(v, parse, scan(page)).Ok? ==> Extract(v, parse, scan(page)).value.Keys == Dates(scan(page))
  {
    forall page | Extract(v, parse, scan(page)).Ok?
      ensures Extract(v, parse, scan(page)).value.Keys == Dates(scan(page))
    {
      ExtractKeys(v, parse, scan(page));
    }
  }

  /** Every stored page run through the reader, before any error is raised. */
  type Parsed = map<StationId, Result<Series, ExtractError>>

  /** Each stored page read under its own station. */
  function ParsePages(read: PageReader, htmls: map<StationId, string>): (p: Parsed)
    ensures p.Keys == htmls.Keys
    ensures forall id :: id in htmls ==> p[id] == read(htmls[id])
  {
    map id | id in htmls :: read(htmls[id])
  }

  /**
   * `{id_: from_html_to_dict(htmls[id_]) for id_ in htmls}`, visiting the stations
   * in `keys` (the order they were stored); the first page that raises ends it.
   */
  function SeriesOf(parsed: Parsed, keys: seq<StationId>): (r: Result<map<StationId, Series>, ExtractError>)
    requires forall i :: 0 <= i < |keys| ==> keys[i] in parsed
    ensures r.Err? ==> exists i :: 0 <= i < |keys| && parsed[keys[i]] == Err(r.error)
    decreases |keys|
  {
    if keys == [] then Ok(map[])
    else
      var init := keys[..|keys| - 1];
      var last := keys[|keys| - 1];
      assert forall i :: 0 <= i < |init| ==> init[i] == keys[i];
      match SeriesOf(parsed, init)
      case Err(e) => Err(e)
      case Ok(m) =>
        match parsed[last]
        case Err(e) => Err(e)
        case Ok(s) => Ok(m[last := s])
  }

  /** The comprehension stops at the first visited page that raises, and raises that page's error. */
  lemma {:induction false} FirstBadPageRaises(parsed: Parsed, keys: seq<StationId>, k: nat)
    requires forall i :: 0 <= i < |keys| ==> keys[i] in parsed
    requires k < |keys|
    requires forall j :: 0 <= j < k ==> parsed[keys[j]].Ok?
    requires parsed[keys[k]].Err?
    ensures SeriesOf(parsed, keys) == Err(parsed[keys[k]].error)
    decreases |keys|
  {
    var init := keys[..|keys| - 1];
    assert forall i :: 0 <= i < |init| ==> init[i] == keys[i];
    if k < |init| {
      FirstBadPageRaises(parsed, init, k);
    } else {
      SeriesOfSucceeds(parsed, init);
    }
  }

  /** Parsing every page succeeds exactly when no page raises. */
  lemma {:induction false} SeriesOfSucceeds(parsed: Parsed, keys: seq<StationId>)
    requires forall i :: 0 <= i < |keys| ==> keys[i] in parsed
    ensures SeriesOf(parsed, keys).Ok? <==> forall i :: 0 <= i < |keys| ==> parsed[keys[i]].Ok?
    decreases |keys|
  {
    if keys != [] {
      var init := keys[..|keys| - 1];
      assert forall i :: 0 <= i < |init| ==> init[i] == keys[i];
      SeriesOfSucceeds(parsed, init);
    }
  }

  /** A successful parse yields one series per visited station, the one extracted from its page. */
  lemma {:induction false} SeriesOfContents(parsed: Parsed, keys: seq<StationId>)
    requires forall i :: 0 <= i < |keys| ==> keys[i] in parsed
    requires SeriesOf(parsed, keys).Ok?
    ensures forall k :: k in SeriesOf(parsed, keys).value <==> k in keys
    ensures forall k :: k in SeriesOf(parsed, keys).value ==> k in parsed && parsed[k] == Ok(SeriesOf(parsed, keys).value[k])
    decreases |keys|
  {
    if keys != [] {
      var init := keys[..|keys| - 1];
      var last := keys[|keys| - 1];
      assert forall i :: 0 <= i < |init| ==> init[i] == keys[i];
      assert forall k :: k in keys <==> k in init || k == last;
      SeriesOfContents(parsed, init);
      var m := SeriesOf(parsed, init).value;
      assert SeriesOf(parsed, keys).value == m[last := parsed[last].value];
    }
  }

  /** The deduplicated index lists exactly the catalogue's station ids. */
  lemma IdSeqCovers(catalog: seq<Station>)
    ensures (set i | 0 <= i < |IdSeq(DropDuplicates(catalog))| :: IdSeq(DropDuplicates(catalog))[i]) == Ids(catalog)
  {
    DropDuplicatesIds(catalog);
    var r := DropDuplicates(catalog);
    var ids := IdSeq(r);
    forall s | s in Ids(r) ensures s in ids {
      var i :| 0 <= i < |r| && r[i].id == s;
      assert ids[i] == s;
    }
  }

  /**
   * The fetch and parse stages of `main`: `None` when some station's fetch never
   * returns, `Err` when some page's extraction raises, and otherwise one series
   * per deduplicated station, extracted from that station's page.
   */
  function StationSeries(v: Variant, read: PageReader, catalog: seq<Station>,
                         network: Network, order: seq<StationId>): (r: Option<Result<map<StationId, Series>, ExtractError>>)
    requires IsCompletionOrder(order, IdSeq(DropDuplicates(catalog)))
    ensures r.Some? && r.value.Ok? ==> r.value.value.Keys == Ids(catalog)
    ensures r.Some? && r.value.Ok? ==>
              forall id :: id in r.value.value ==> read(PageOf(v, network, id)) == Ok(r.value.value[id])
  {
    var ids := IdSeq(DropDuplicates(catalog));
    match FetchAll(v, network, ids, order)
    case None => None
    case Some(htmls) =>
      OrderCoversCatalog(catalog, order);
      var parsed := ParsePages(read, htmls);
      var q := SeriesOf(parsed, order);
      if q.Ok? then
        SeriesOfContents(parsed, order);
        SeriesKeys(parsed, order, Ids(catalog));
        Some(q)
      else
        Some(q)
  }

  /** The fetch and parse stages end exactly when every deduplicated station's fetch returns. */
  lemma StationSeriesEnds(v: Variant, read: PageReader, catalog: seq<Station>,
                          network: Network, order: seq<StationId>)
    requires IsCompletionOrder(order, IdSeq(DropDuplicates(catalog)))
    ensures StationSeries(v, read, catalog, network, order).Some? <==> AllReturn(v, network, IdSeq(DropDuplicates(catalog)))
  {
    var ids := IdSeq(DropDuplicates(catalog));
    assert StationSeries(v, read, catalog, network, order).Some? <==> FetchAll(v, network, ids, order).Some?;
  }

  /** Every station of a completion order is one of the catalogue's, and every catalogue station is in it. */
  lemma OrderCoversCatalog(catalog: seq<Station>, order: seq<StationId>)
    requires IsCompletionOrder(order, IdSeq(DropDuplicates(catalog)))
    ensures (set i | 0 <= i < |IdSeq(DropDuplicates(catalog))| :: IdSeq(DropDuplicates(catalog))[i]) == Ids(catalog)
    ensures forall i :: 0 <= i < |order| ==> order[i] in Ids(catalog)
    ensures forall s :: s in Ids(catalog) ==> s in order
  {
    var ids := IdSeq(DropDuplicates(catalog));
    var idSet := set j | 0 <= j < |ids| :: ids[j];
    SameMembers(order, ids);
    IdSeqCovers(catalog);
    assert idSet == Ids(catalog);
    forall i | 0 <= i < |order| ensures order[i] in Ids(catalog) {
      assert order[i] in ids;
      var j :| 0 <= j < |ids| && ids[j] == order[i];
      assert ids[j] in idSet;
    }
    forall s | s in Ids(catalog) ensures s in order {
      assert s in idSet;
      var j :| 0 <= j < |ids| && ids[j] == s;
      assert s in ids;
    }
  }

  /** The visited stations are exactly the expected ones, so the parsed map has exactly their keys. */
  lemma SeriesKeys(parsed: Parsed, order: seq<StationId>, expected: set<StationId>)
    requires forall i :: 0 <= i < |order| ==> order[i] in parsed
    requires forall i :: 0 <= i < |order| ==> order[i] in expected
    requires forall s :: s in expected ==> s in order
    requires SeriesOf(parsed, order).Ok?
    requires forall k :: k in SeriesOf(parsed, order).value <==> k in order
    ensures SeriesOf(parsed, order).value.Keys == expected
  {
  }

  /**
   * The run of `main` up to the table handed to `to_csv`: `None` when some
   * station's fetch never returns, `Err` when some page's extraction raises.
   */
  function RunMain(v: Variant, read: PageReader, names: set<string>, catalog: seq<Station>,
                   network: Network, order: seq<StationId>): (r: Option<Result<Frame, ExtractError>>)
    requires IsCompletionOrder(order, IdSeq(DropDuplicates(catalog)))
    ensures r.Some? <==> AllReturn(v, network, IdSeq(DropDuplicates(catalog)))
  {
    StationSeriesEnds(v, read, catalog, network, order);
    match StationSeries(v, read, catalog, network, order)
    case None => None
    case Some(Err(e)) => Some(Err(e))
    case Some(Ok(series)) => Some(Ok(Merge(v, names, catalog, series)))
  }

  /**
   * The finished table: one row per deduplicated station in catalogue order, and
   * in each date column the station's own reading for that date, 0 where it has
   * none or it is missing.
   */
  lemma MainTable(v: Variant, read: PageReader, names: set<string>, catalog: seq<Station>,
                  network: Network, order: seq<StationId>)
    requires IsCompletionOrder(order, IdSeq(DropDuplicates(catalog)))
    ensures var r := RunMain(v, read, names, catalog, network, order);
            r.Some? && r.value.Ok? ==>
              var f := r.value.value;
              && |f.rows| == |DropDuplicates(catalog)|
              && (forall i :: 0 <= i < |f.rows| ==> f.rows[i].station == DropDuplicates(catalog)[i].id)
              && forall i, d :: 0 <= i < |f.rows| && Day(d) in f.rows[i].cells ==>
                   var s := read(PageOf(v, network, f.rows[i].station));
                   s.Ok? && f.rows[i].cells[Day(d)] == Filled(if d in s.value then s.value[d] else Missing)
  {
    var q := StationSeries(v, read, catalog, network, order);
    if q.Some? && q.value.Ok? {
      var series := q.value.value;
      MergeRows(v, names, catalog, series);
      MergeDays(v, names, catalog, series);
    }
  }

  /**
   * A station whose fetch gave empty content (a skip) has 0 in every date
   * column of the finished table: the pattern finds no match in an empty page,
   * so its series is empty.
   */
  lemma SkippedStationZeros(v: Variant, parse: NumberParser, scan: Scanner, names: set<string>,
                            catalog: seq<Station>, network: Network, order: seq<StationId>)
    requires IsCompletionOrder(order, IdSeq(DropDuplicates(catalog)))
    requires scan("") == []
    ensures var r := RunMain(v, ScriptReader(v, parse, scan), names, catalog, network, order);
            r.Some? && r.value.Ok? ==>
              var f := r.value.value;
              forall i, d :: 0 <= i < |f.rows| && PageOf(v, network, f.rows[i].station) == "" && Day(d) in f.rows[i].cells ==>
                f.rows[i].cells[Day(d)] == Num(0.0)
  {
    var read := ScriptReader(v, parse, scan);
    assert read("") == Ok(map[]);
    MainTable(v, read, names, catalog, network, order);
  }

  /** Visiting the same stations in another order raises or not alike, and builds the same map when it does not. */
  lemma SeriesOfOrder(parsed: Parsed, keys1: seq<StationId>, keys2: seq<StationId>)
    requires forall k :: k in keys1 <==> k in keys2
    requires forall i :: 0 <= i < |keys1| ==> keys1[i] in parsed
    requires forall i :: 0 <= i < |keys2| ==> keys2[i] in parsed
    ensures SeriesOf(parsed, keys1).Ok? == SeriesOf(parsed, keys2).Ok?
    ensures SeriesOf(parsed, keys1).Ok? ==> SeriesOf(parsed, keys1) == SeriesOf(parsed, keys2)
  {
    var q1 := SeriesOf(parsed, keys1);
    var q2 := SeriesOf(parsed, keys2);
    SeriesOfSucceeds(parsed, keys1);
    SeriesOfSucceeds(parsed, keys2);
    if q1.Ok? {
      SeriesOfContents(parsed, keys1);
      forall i | 0 <= i < |keys2| ensures parsed[keys2[i]].Ok? {
        assert keys2[i] in keys1;
        var j :| 0 <= j < |keys1| && keys1[j] == keys2[i];
      }
      assert q2.Ok?;
      SeriesOfContents(parsed, keys2);
      assert q1.value.Keys == q2.value.Keys;
      assert q1.value == q2.value;
    }
    if q2.Ok? {
      forall i | 0 <= i < |keys1| ensures parsed[keys1[i]].Ok? {
        assert keys1[i] in keys2;
        var j :| 0 <= j < |keys2| && keys2[j] == keys1[i];
      }
    }
  }

  /**
   * The order in which the workers finish does not change whether `main` ends
   * or whether it raises, nor the table it builds; only which error is raised
   * first may differ.
   */
  lemma MainOrderIrrelevant(v: Variant, read: PageReader, names: set<string>, catalog: seq<Station>,
                            network: Network, order1: seq<StationId>, order2: seq<StationId>)
    requires IsCompletionOrder(order1, IdSeq(DropDuplicates(catalog)))
    requires IsCompletionOrder(order2, IdSeq(DropDuplicates(catalog)))
    ensures var r1 := RunMain(v, read, names, catalog, network, order1);
            var r2 := RunMain(v, read, names, catalog, network, order2);
            && r1.Some? == r2.Some?
            && (r1.Some? ==> r1.value.Ok? == r2.value.Ok?)
            && (r1.Some? && r1.value.Ok? ==> r1 == r2)
  {
    var ids := IdSeq(DropDuplicates(catalog));
    var q1 := StationSeries(v, read, catalog, network, order1);
    var q2 := StationSeries(v, read, catalog, network, order2);
    if q1.Some? {
      CompletionOrderIrrelevant(v, network, ids, order1, order2);
      var htmls := FetchAll(v, network, ids, order1).value;
      SameMembers(order1, ids);
      SameMembers(order2, ids);
      var parsed := ParsePages(read, htmls);
      assert q1.value == SeriesOf(parsed, order1);
      assert q2.value == SeriesOf(parsed, order2);
      SeriesOfOrder(parsed, order1, order2);
    }
  }
}

=== FILE: results.dfy ===
/** Failure-carrying wrappers shared by the whole model. */
module Results {

  /** A value that may be absent: Python's `None` or a dictionary miss. */
  datatype Option<+T> = None | Some(value: T) {

    /** The wrapped value, or `default` when there is none (Python's `dict.get(key, default)`). */
    function GetOr(default: T): T {
      match this
      case Some(v) => v
      case None => default
    }
  }

  /** The outcome of a computation that may raise: `Ok` carries the value, `Err` the exception. */
  datatype Result<+T, +E> = Ok(value: T) | Err(error: E)
}

=== FILE: text.dfy ===
/**
 * String helpers with Python semantics: `str.split(sep)` for a one-character
 * separator, the substring test `needle in hay`, and ASCII `str.lower()`.
 */
module Text {

  /** Number of occurrences of `c` in `s`. */
  function Count(s: string, c: char): nat {
    if s == [] then 0 else (if s[0] == c then 1 else 0) + Count(s[1..], c)
  }

  /** Inverse of `SplitOn`: `sep.join(parts)`. */
  function JoinWith(parts: seq<string>, sep: char): string
    requires |parts| >= 1
  {
    if |parts| == 1 then parts[0] else parts[0] + [sep] + JoinWith(parts[1..], sep)
  }

  /**
   * `s.split(sep)` for a one-character separator: the maximal runs between
   * separators, including empty runs at either end.
   */
  function SplitOn(s: string, sep: char): (parts: seq<string>)
    ensures |parts| == Count(s, sep) + 1
    ensures forall i :: 0 <= i < |parts| ==> sep !in parts[i]
  {
    if s == [] then [""]
    else
      var rest := SplitOn(s[1..], sep);
      if s[0] == sep then [""] + rest
      else [[s[0]] + rest[0]] + rest[1..]
  }

  /** Round trip: joining the parts of a split with the separator gives the string back. */
  lemma {:induction false} JoinSplitOn(s: string, sep: char)
    ensures JoinWith(SplitOn(s, sep), sep) == s
  {
    if s != [] {
      JoinSplitOn(s[1..], sep);
      var rest := SplitOn(s[1..], sep);
      if s[0] != sep && |rest| > 1 {
        assert JoinWith(rest, sep) == rest[0] + [sep] + JoinWith(rest[1..], sep);
      }
    }
  }

  /** A string without the separator is not split at all. */
  lemma {:induction false} SplitOnFree(s: string, sep: char)
    requires sep !in s
    ensures SplitOn(s, sep) == [s]
  {
    if s != [] {
      SplitOnFree(s[1..], sep);
      assert [s[0]] + s[1..] == s;
    }
  }

  /** Splitting distributes over a separator: `(a + sep + b).split(sep) == a.split(sep) + b.split(sep)`. */
  lemma {:induction false} SplitOnAround(a: string, b: string, sep: char)
    ensures SplitOn(a + [sep] + b, sep) == SplitOn(a, sep) + SplitOn(b, sep)
  {
    if a == [] {
      assert a + [sep] + b == [sep] + b;
      assert ([sep] + b)[1..] == b;
    } else {
      assert (a + [sep] + b)[1..] == a[1..] + [sep] + b;
      SplitOnAround(a[1..], b, sep);
    }
  }

  /** Round trip from the other side: joining separator-free parts and splitting again gives the parts back. */
  lemma {:induction false} SplitOnJoin(parts: seq<string>, sep: char)
    requires |parts| >= 1
    requires forall i :: 0 <= i < |parts| ==> sep !in parts[i]
    ensures SplitOn(JoinWith(parts, sep), sep) == parts
  {
    if |parts| == 1 {
      SplitOnFree(parts[0], sep);
    } else {
      SplitOnJoin(parts[1..], sep);
      SplitOnAround(parts[0], JoinWith(parts[1..], sep), sep);
      SplitOnFree(parts[0], sep);
      assert [parts[0]] + parts[1..] == parts;
    }
  }

  /** `needle` occurs in `hay` starting at index `i`. */
  predicate OccursAt(hay: string, needle: string, i: nat) {
    i + |needle| <= |hay| && hay[i..i + |needle|] == needle
  }

  /** Python's `needle in hay` on strings. */
  function Contains(hay: string, needle: string): (b: bool)
    ensures b <==> exists i: nat :: OccursAt(hay, needle, i)
    decreases |hay|
  {
    if |hay| < |needle| then false
    else if hay[..|needle|] == needle then
      assert OccursAt(hay, needle, 0);
      true
    else
      var b := Contains(hay[1..], needle);
      if b then
        var i: nat :| OccursAt(hay[1..], needle, i);
        assert hay[i + 1..i + 1 + |needle|] == hay[1..][i..i + |needle|];
        assert OccursAt(hay, needle, i + 1);
        true
      else
        assert !OccursAt(hay, needle, 0);
        forall i: nat | 1 <= i && OccursAt(hay, needle, i)
          ensures OccursAt(hay[1..], needle, i - 1)
        {
          assert hay[1..][i - 1..i - 1 + |needle|] == hay[i..i + |needle|];
        }
        false
  }

  /** A Latin letter, either case. */
  predicate IsLetter(c: char) {
    'a' <= c <= 'z' || 'A' <= c <= 'Z'
  }

  /** ASCII lower-casing of one character. */
  function LowerChar(c: char): char {
    if 'A' <= c <= 'Z' then (c as int + 32) as char else c
  }

  /** `s.lower()` restricted to ASCII letters. */
  function Lower(s: string): (r: string)
    ensures |r| == |s|
    ensures forall i :: 0 <= i < |s| ==> r[i] == LowerChar(s[i])
    ensures forall i :: 0 <= i < |r| ==> !('A' <= r[i] <= 'Z')
  {
    seq(|s|, i requires 0 <= i < |s| => LowerChar(s[i]))
  }

  /** Peeling a separator-free first part off a join. */
  lemma SplitOnJoinCons(parts: seq<string>, sep: char)
    requires |parts| >= 2
    requires sep !in parts[0]
    ensures SplitOn(JoinWith(parts, sep), sep) == [parts[0]] + SplitOn(JoinWith(parts[1..], sep), sep)
  {
    SplitOnAround(parts[0], JoinWith(parts[1..], sep), sep);
    SplitOnFree(parts[0], sep);
  }

  /** The first part of a split starts with the first character when that is not the separator. */
  lemma SplitOnHead(s: string, sep: char)
    requires |s| >= 1 && s[0] != sep
    ensures SplitOn(s, sep)[0] != ""
  {
  }

  /** Joining two non-empty runs of parts is joining each and putting a separator between. */
  lemma {:induction false} JoinAppend(a: seq<string>, b: seq<string>, sep: char)
    requires |a| >= 1 && |b| >= 1
    ensures JoinWith(a + b, sep) == JoinWith(a, sep) + [sep] + JoinWith(b, sep)
    decreases |a|
  {
    if |a| > 1 {
      assert (a + b)[1..] == a[1..] + b;
      JoinAppend(a[1..], b, sep);
    } else {
      assert (a + b)[1..] == b;
    }
  }

  /** A run of separator-free leading parts survives a join-then-split unchanged. */
  lemma SplitOnJoinPrefix(parts: seq<string>, sep: char, k: nat)
    requires k < |parts|
    requires forall i :: 0 <= i < k ==> sep !in parts[i]
    ensures SplitOn(JoinWith(parts, sep), sep) == parts[..k] + SplitOn(JoinWith(parts[k..], sep), sep)
  {
    if k > 0 {
      JoinAppend(parts[..k], parts[k..], sep);
      assert parts[..k] + parts[k..] == parts;
      SplitOnAround(JoinWith(parts[..k], sep), JoinWith(parts[k..], sep), sep);
      SplitOnJoin(parts[..k], sep);
    }
  }
}

=== FILE: variants.dfy ===
/**
 * The two measurement variants of the acquisition pipeline. Both scripts are
 * one program parameterised by a `Variant`: temperature (`termo_men` pages)
 * and rainfall (`pluvio_men` pages).
 */
module Variants {

  /** One table cell: a missing marker (Python `None` / pandas `NaN`), a finite number, an infinity or a text. */
  datatype Cell = Missing | Num(x: real) | Inf(negative: bool) | Str(s: string)

  /**
   * What distinguishes the two scripts:
   * - `valueField`: which element of `entry.split('"')` holds the reading;
   * - `emptyValue`: what an empty reading field becomes;
   * - `skips`: whether an image response or an error mentioning "500" ends the
   *   station's fetch with empty content instead of a retry;
   * - `idColumn`: whether `IDStazione` is brought back from the index to a column.
   */
  datatype Variant = Variant(valueField: nat, emptyValue: Cell, skips: bool, idColumn: bool)

  /** `update_temp.py`: reading in `parts[5]`, empty becomes `None`, skips, index reset. */
  const Temperature: Variant := Variant(5, Missing, true, true)

  /** `update_dati.py`: reading in `parts[7]`, empty becomes `0.0`, never skips, index kept. */
  const Rainfall: Variant := Variant(7, Num(0.0), false, false)
}
